=== FILE: README.md ===
# yamdb identity, authorisation and review integrity in Dafny

A model of the core of the yamdb REST service, a catalogue of titles (books,
films, music) that users review and comment on. It covers:

- **Roles** (`roles.dfy`): the three-tier role (user, moderator, admin) and
  the actor a request runs as. The actor is the anonymous user or a stored
  user with a role and the `is_staff` and `is_superuser` flags. Both flags
  count as admin. `EffectiveRole` folds role and flags into one role.
- **Permissions** (`permissions.dfy`): the three permission classes
  `UserIsModerator`, `UserIsAdmin` and `UserIsAdminOrReadOnly`. Each is a
  pure predicate over the HTTP method, the actor and, at object level, the
  object's author. Each is checked against a reference truth table and
  shown to be monotone in privilege.
- **Identity** (`identity.dfy`): the user registry, keyed by username.
  - `SignUp`: signup validation and get-or-create of the user with a fresh
    confirmation code. The code is handed to the mail notifier.
  - `ExchangeToken`: trading a username and confirmation code for a token.
  - `SetProfile`: the self-service profile endpoint `users/me`.
  - `CreateUser`: account creation by an admin.
- **Catalog** (`catalog.dfy`): categories and genres with unique slugs, and
  titles with an optional category. The GenreTitle table links genres to
  titles.
  - Deleting a category sets its titles' category to null (`SET_NULL`).
  - Deleting a genre or a title cascades to its links (`CASCADE`).
  - `CreateTitle` gets or creates each listed genre and links it to the new
    title.
- **ReviewLedger** (`ledger.dfy`): reviews and comments.
  - Posting: the author comes from the request, the title from the URL, the
    score must lie in 1..10, and there is one review per (title, author).
  - Updating and deleting follow the object-permission rule. Deleting a
    review removes its comments with it.
  - A title's rating is the exact mean of its current review scores.
- **AsWritten** (`aswritten.dfy`): seven places where the repository's code
  differs from its evident intent. Each is modelled as written, with a lemma
  that exhibits the difference (see "## Findings").

Every request is a pure function from the current state (registry, catalog
store, ledger), the actor and the payload to a `Result`.
- `Failure` covers:
  - a serializer `ValidationError` (400, with a `Reason`);
  - an authentication or permission refusal (401 for the anonymous user,
    403 otherwise);
  - `get_object_or_404` (404);
  - a database uniqueness violation or uncaught exception (500).
- A missing request field is `None`.
- The token generator's output is a `code` parameter.
- The mail notifier receives a `Mail` value returned alongside the new
  state.

Invariants are ghost predicates (`Identity.Valid`, `Catalog.Valid`,
`ReviewLedger.Valid`), and every operation that changes state is shown to
preserve its invariant. They include:
- unique usernames, ids and emails;
- no stored user named `me` or with an empty name;
- unique slugs;
- foreign keys that resolve;
- scores in range;
- one review per (title, author);
- comments that point at stored reviews.

Some behaviours a reader might expect from a REST service are not what the
code does, and the model follows the code:
- A username or email already taken is answered with a validation error,
  400, not 409.
- A second review of the same title is also a validation error (400).
- A token request with a wrong code is answered 400 with no body.
- The profile endpoint may change username, email and bio. Only role, flags
  and the confirmation code are protected.
- The access token records the user's id. `Token` also carries the
  effective role at issuance, so the token is a snapshot.

## Model

| member | source | states |
|---|---|---|
| Roles.EffectiveRole | api_yamdb/api/permissions.py:33-35 | the effective role is admin exactly when the actor is staff, superuser or holds the admin role; it is moderator exactly for a non-admin moderator; it never ranks below the stored role |
| Roles.ElevationRaisesEffectiveRole | api_yamdb/api/permissions.py:15-21 | raising a user's role or adding a flag never lowers their effective role |
| Permissions.ModeratorHasPermission | api_yamdb/api/permissions.py:5-9 | request-level `UserIsModerator` agrees with the tier x method truth table in every cell: reads for all, writes for every logged-in tier |
| Permissions.ModeratorHasObjectPermission | api_yamdb/api/permissions.py:11-21 | object-level `UserIsModerator` agrees with the tier x ownership x method truth table in every cell: reads for all, writes for the owner, moderators and admins |
| Permissions.AdminHasPermission | api_yamdb/api/permissions.py:24-26 | `UserIsAdmin` agrees with the tier x method truth table in every cell: the admin tier only, for every method |
| Permissions.AdminOrReadOnlyHasPermission | api_yamdb/api/permissions.py:29-36 | `UserIsAdminOrReadOnly` agrees with the tier x method truth table in every cell: reads for all, writes for the admin tier only |
| Permissions.SafeMethodsAlwaysAllowed | api_yamdb/api/permissions.py:6-13 | GET, HEAD and OPTIONS pass `UserIsModerator` at both levels and `UserIsAdminOrReadOnly`, for every actor including the anonymous one |
| Permissions.UnsafeNeedsAuthentication | api_yamdb/api/permissions.py:5-9 | an unsafe method passes the request-level moderator check if and only if the actor is logged in |
| Permissions.ObjectWriteRule | api_yamdb/api/permissions.py:14-21 | an unsafe method on an object is allowed if and only if the actor is logged in and is its author or has an effective role above user; the anonymous user is always refused |
| Permissions.AdminCheckIgnoresMethod | api_yamdb/api/permissions.py:24-26 | `UserIsAdmin` gives the same answer for every method, and allows exactly the effective admins |
| Permissions.AdminOrReadOnlyRule | api_yamdb/api/permissions.py:29-36 | `UserIsAdminOrReadOnly` allows exactly the safe methods plus everything `UserIsAdmin` allows |
| Permissions.PermissionsMonotone | api_yamdb/api/permissions.py:4-36 | if the less privileged actor is allowed, so is the more privileged one, in all four checks |
| Permissions.Denial | api_yamdb/api/permissions.py:9 | a refusal is 401 exactly for the anonymous user and 403 exactly for a logged-in one |
| Identity.ValidateUsername | api_yamdb/api/serializers.py:28-35 | a username is accepted if and only if it is present, not `me` and not empty, and the accepted name is the one sent; `me` is refused as reserved, a missing or empty name as missing |
| Identity.ValidateEmail | api_yamdb/api/serializers.py:37-40 | an email is accepted if and only if it is present and not empty, and the accepted address is the one sent; otherwise it is refused as missing |
| Identity.ValidateSignup | api_yamdb/api/serializers.py:28-56 | accepted credentials are the sent username and email, never `me`, never empty |
| Identity.SignupValidationExact | api_yamdb/api/serializers.py:42-56 | signup validation accepts if and only if both fields are present and legal and the pair is new or is exactly a stored user's pair |
| Identity.SignupRejections | api_yamdb/api/serializers.py:28-55 | reserved name, missing or empty username, missing or empty email, username under another email, email under another username: each is refused with its reason, in the serializer's order |
| Identity.SignUp | api_yamdb/api/views.py:41-60 | succeeds exactly when validation does; stores the user for the pair with the fresh code and mails that stored code to the given address; a returning user keeps id, role and profile and only the code changes; a new user gets the next id, the sent bio, the user role and no flags; all other rows are untouched and the registry invariant holds |
| Identity.SignUpIdempotent | api_yamdb/api/views.py:50-53 | signing up again with the same pair adds no row, and gives the same registry as a single signup with the later code |
| Identity.SignUpNeverStoresReserved | api_yamdb/api/views.py:43-53 | after any signup no user is named `me` or has an empty name, and no two users share an email |
| Identity.ValidateTokenRequest | api_yamdb/api/serializers.py:58-73 | accepted exactly when username and code are present, non-blank and within 100 and 255 characters; a missing username is refused |
| Identity.ExchangeToken | api_yamdb/api/views.py:62-76 | a token is issued if and only if the request is well formed, the username exists and the code matches exactly; the token carries that user's id and effective role; an unknown username is 404; a wrong code is a 400 |
| Identity.SignUpThenExchange | api_yamdb/api/views.py:49-76 | the code mailed by a signup exchanges for a token of exactly the user that signed up |
| Identity.LongUsernameLockedOut | api_yamdb/api/serializers.py:59 | a user who signed up with a username longer than 100 characters is refused every token request as too long |
| Identity.ResignupRevokesOldCode | api_yamdb/api/views.py:49-71 | after a second signup with a different code, the first mailed code is refused with a mismatch |
| Identity.FindById | api_yamdb/api/views.py:35 | the lookup returns the row with the requester's primary key, and returns none only when no row has it |
| Identity.ValidatePatch | api_yamdb/api/views.py:36-37 | a partial payload is accepted if and only if it sets neither the name `me` nor an empty name or email and passes both `validate` checks against every stored row, the requester's own included, with a field left out counting as absent: a sent username that is stored must come with that row's email, and a sent email that is stored must come with that row's username |
| Identity.SetProfile | api_yamdb/api/views.py:28-39 | the update succeeds if and only if the requester is logged in, has a row, the payload validates and the new username is their own or free; anonymous is 401, a missing row 404, an invalid payload its validation error, a username held by another user is refused as taken (400); only the requester's own row changes, and only in username, email and bio; role, flags, id and confirmation code are kept; every other row is kept and the invariant holds |
| Identity.ProfileIgnoresRole | api_yamdb/api/serializers.py:8 | a `role` in the payload has no effect on the result |
| Identity.ProfileReadChangesNothing | api_yamdb/api/views.py:30-39 | an empty payload (the GET form) returns the requester's own row and leaves the registry as it was |
| Identity.CreateUser | api_yamdb/api/serializers.py:19-26 | creation succeeds if and only if the actor is an admin, the payload validates and the username is new; non-admins get 401 or 403, an invalid payload its validation error, a stored username is refused as taken (400); the account has the sent username, email and bio, the next id, the user role, no flags and the generated code; the other rows are unchanged and the invariant holds |
| Catalog.CreateCategory | api_yamdb/reviews/models.py:12-14 | insertion succeeds if and only if no category has the slug; a duplicate slug is refused; on success the new row is added and nothing else changes |
| Catalog.CreateGenre | api_yamdb/reviews/models.py:17-19 | insertion succeeds if and only if no genre has the slug; a duplicate slug is refused; on success the new row is added and nothing else changes |
| Catalog.DeleteCategory | api_yamdb/reviews/models.py:29-32 | deleting a category removes that row only, keeps every title, clears exactly the category references to it, and changes no other field, category, genre or link |
| Catalog.Unlink | api_yamdb/reviews/models.py:40-42 | the links left are exactly those not referencing the deleted row, each with its original multiplicity |
| Catalog.DeleteGenre | api_yamdb/reviews/models.py:41 | deleting a genre removes that row and exactly its GenreTitle rows, and keeps every other genre, the titles, categories and all other links unchanged |
| Catalog.DeleteTitle | api_yamdb/reviews/models.py:42 | deleting a title removes that row and exactly its GenreTitle rows, and keeps every other title, the genres, categories and all other links unchanged |
| Catalog.GetOrCreateGenre | api_yamdb/api/serializers.py:150-151 | fails if and only if a stored genre holds the slug under another name; otherwise returns a genre equal to the request, reusing a stored one when it exists and adding nothing else |
| Catalog.LinkGenres | api_yamdb/api/serializers.py:148-155 | the genre loop fails if and only if some list entry clashes, with an integrity error; otherwise every entry has been got or created and linked, and titles and categories are unchanged |
| Catalog.StepFailsOnClash | api_yamdb/api/serializers.py:148-151 | during title creation, the next genre fails exactly when its slug is held under another name by a stored genre or an earlier entry of the list |
| Catalog.CreateTitle | api_yamdb/api/serializers.py:135-156 | fails if and only if the category is unknown or some listed genre clashes; on success the title is stored, existing genres are kept, new genres come only from the list, and one link per list entry is appended in order to a genre equal to that entry |
| Identity.PartialPatchRefusals | api_yamdb/api/serializers.py:42-56 | a partial update that resends the requester's own email without the username is refused as email taken, and one that resends the own username without the email as username taken |
| Catalog.ExistingGenresReused | api_yamdb/api/serializers.py:150-155 | a listed genre equal to a stored one is linked to that stored row, not to a copy |
| ReviewLedger.FindReview | api_yamdb/api/views.py:97 | the lookup returns the position of the review with that key, and returns none exactly when there is none |
| ReviewLedger.ValidateScore | api_yamdb/api/serializers.py:80-83 | a score is accepted if and only if it lies in 1..10 (or is absent from a partial update); an out-of-range score is refused |
| ReviewLedger.PostReview | api_yamdb/api/serializers.py:85-97 | a review is stored if and only if the actor is logged in, the score is in range, the title exists and the actor has no review of it; the failures are 401, 404 and duplicate; the new review is appended with the requester as author, the URL's title and the sent score and text, and the invariant holds |
| ReviewLedger.PostIgnoresPayloadIdentity | api_yamdb/api/views.py:87-89 | an author or title sent in the payload has no effect on the result |
| ReviewLedger.LocateReview | api_yamdb/api/views.py:83-85 | a review is found under a title if and only if the title exists and a review with that key belongs to it; otherwise 404 |
| ReviewLedger.UpdateReview | api_yamdb/api/serializers.py:85-97 | an update succeeds if and only if the actor is logged in, the review exists under the title, the actor is its author or a moderator or admin, and the score validates; anonymous is 401, a missing review 404, a plain user who is not the author 403, a bad score its validation error; an update keeps id, title and author, changes only score and text, and keeps the invariant |
| ReviewLedger.DropComments | api_yamdb/api/views.py:96-98 | the comments left are exactly those on other reviews, unchanged |
| ReviewLedger.DeleteReview | api_yamdb/api/permissions.py:11-21 | a delete succeeds if and only if the actor is logged in, the review exists under the title, and the actor is its author or a moderator or admin; anonymous is 401, a missing review 404, a plain user who is not the author 403; a delete removes exactly that review and its comments, and keeps the invariant |
| ReviewLedger.PostComment | api_yamdb/api/views.py:100-102 | a comment is stored if and only if the actor is logged in and the review exists; it is added under a fresh key with the sent text, the requester as author and the URL's review; reviews are unchanged |
| ReviewLedger.ComputeRating | api_yamdb/api/views.py:120-122 | one pass over the ledger yields the reference rating: the sum and count of the title's current scores, or none |
| ReviewLedger.NoRatingIffNoReviews | api_yamdb/api/views.py:120-122 | a title has no rating if and only if it has no review |
| ReviewLedger.RatingInRange | api_yamdb/api/views.py:120-122 | a rating lies between 1 and 10 |
| ReviewLedger.RatingAfterPost | api_yamdb/api/views.py:120-122 | posting a review adds its score and one to its title's totals and changes no other title's rating |
| ReviewLedger.RatingAfterDelete | api_yamdb/api/views.py:120-122 | deleting a review subtracts its score and one from its title's totals and changes no other title's rating |
| ReviewLedger.OneReviewPerAuthor | api_yamdb/api/serializers.py:90-95 | the ledger never holds two reviews of one title by one author |
| AsWritten.ValidateSignupAsWritten | api_yamdb/api/serializers.py:42-56 | the as-written validation accepts only what the intended validation accepts, and refuses every stored username before `validate` runs; a new username sent with no email is a server error |
| AsWritten.SetProfileAsWritten | api_yamdb/api/serializers.py:42-56 | as written, a profile update succeeds only where the intended one does, with the same result; a sent username that is the requester's own, or a sent email that is stored, is a server error |
| AsWritten.OwnPairCrashesAsWritten | api_yamdb/api/serializers.py:48-51 | resending the requester's own username and email is a server error as written, and succeeds as intended |
| AsWritten.MissingEmailCrashesAsWritten | api_yamdb/api/views.py:46 | a new username sent without an email is a server error as written, and refused as missing (400) as intended |
| AsWritten.TakenEmailCrashesAsWritten | api_yamdb/api/serializers.py:52-55 | a new username with an email already stored is a server error as written, and refused as email taken (400) as intended |
| AsWritten.ResignupRefusedAsWritten | api_yamdb/api/serializers.py:7-17 | re-sending a stored (username, email) pair is refused as a taken username as written, and accepted as intended |
| AsWritten.SignUpAsWritten | api_yamdb/api/views.py:43-60 | with the intended validation in front, the as-written view only succeeds for an existing username, and then changes nothing |
| AsWritten.NewcomerGets404AsWritten | api_yamdb/api/views.py:48-53 | every valid signup with a new username is a 404 as written, where the intended signup adds the user |
| AsWritten.FirstSignupAsWritten | api_yamdb/api/views.py:48 | the first signup on an empty registry is a 404 as written and succeeds as intended |
| AsWritten.CreateUserAsWritten | api_yamdb/api/serializers.py:19-26 | as written, admin account creation never succeeds |
| AsWritten.AdminCreateFailsAsWritten | api_yamdb/api/serializers.py:21 | an admin creating a valid new account gets a server error as written and succeeds as intended |
| AsWritten.AdminOrReadOnlyAsWritten | api_yamdb/api/permissions.py:29-36 | the as-written check allows exactly what the intended check allows |
| AsWritten.AnonymousWriteCrashesAsWritten | api_yamdb/api/permissions.py:35 | an anonymous unsafe request crashes as written, where the intended check refuses it with 401 |

## Left out

- Mail delivery (`send_mail`) is I/O. The model returns the `Mail` value to
  send and does not model delivery failures.
- The token generator (`default_token_generator.make_token`) is a `code`
  parameter. JWT minting (`RefreshToken.for_user`) is the `Token` value. The
  model has no signing, expiry or token decoding.
- Concurrency is not modelled. Each request is one atomic transition, so the
  race between two signups for the same pair is out of scope.
- `Catalog.CreateTitle`: the source writes the title and its links one by
  one with no transaction. After a clashing genre it leaves the title and
  the earlier links behind. The model treats the creation as atomic, so it
  returns an error and leaves no store.
- The rating is kept exact, as a sum and a count. The database's
  floating-point average is not modelled.
- Catalog endpoints have no permission classes in the source and rely on the
  project default, which is not part of this model. The model does not
  guard catalog writes.
- Search and filter backends, pagination and URL routing are not modelled.
  `api_yamdb/api/urls.py` refers to names that the views do not define.
- DRF field plumbing is not modelled: whitespace trimming in `CharField`,
  and `max_length` on model fields other than the two `AuthSerializer`
  fields. The user model's 150-character username limit is among these, so
  the model's signup accepts names of any length.
  `Identity.LongUsernameLockedOut` shows that a name over 100 characters can
  never get a token.
- Catalog.ExistingGenresReused: the model follows the evident reuse of
  `get_or_create`. The nested `GenreSerializer(many=True)`
  (`api_yamdb/api/serializers.py:129`) is a model serializer, so the slug's
  unique validator would refuse with 400 any listed genre whose slug is
  stored, before `create` runs, and no genre would ever be reused.
- Identity.ValidateSignup: three field checks of the user model are not
  modelled: the username's character validator (letters, digits and
  `@.+-_`), the 150-character username limit, and the email field's
  address-format check. The model accepts a name such as `a b`, a name of
  151 characters, or an address such as `x`. The serializer refuses each
  with 400 before `validate_username` and `validate_email` run.
- Identity.SignupValidationExact: its "if" direction inherits that gap. It
  claims acceptance for names and addresses that the three field checks
  above refuse.
- Identity.SetProfile: the same three field checks are not modelled for a
  patched username or email.
- Identity.CreateUser: the same three field checks are not modelled for the
  admin-created account.
- Identity.SignUp: a returning user keeps their stored bio. The sent bio is
  used only for a new user, because the lookup of the evidently intended
  `get_or_create` is the username and email.
- The automatic unique-username validator is applied in
  `Identity.SetProfile` and `Identity.CreateUser`. In signup it appears only in
  `AsWritten.ValidateSignupAsWritten`. The intended validation
  (`Identity.ValidateSignup`) lets a returning user re-send their own pair,
  as `sign_up`'s `get_or_create` expects.
- Comment update and delete are not modelled. They follow the same
  permission path as reviews (`ReviewLedger.UpdateReview`,
  `ReviewLedger.DeleteReview`).
- The `Review` and `Comment` models are imported but missing from
  `api_yamdb/reviews/models.py`. The model assumes their evident shape:
  - a review has a score, a title, an author and a text;
  - a comment has a review and an author;
  - deleting a review cascades to its comments.
- ReviewLedger.PostReview: review text is treated as optional, and a review
  sent without one is stored with empty text. With the usual `TextField()`
  the source would refuse it with 400.
- The `User` model at `api_yamdb/reviews/models.py:5-9` declares only `bio`,
  while the code reads `role`, `confirmation_code`, `is_moderator()` and
  `is_admin()`. The model gives users those fields with their evident
  meaning.
- `ReviewViewSet` and `CommentViewSet` assign a bare class to
  `permission_classes` (`api_yamdb/api/views.py:81`, `:94`), which the
  framework cannot iterate. The model applies `UserIsModerator` as evidently
  intended.
- `TitleSerializer` declares a nested `genres` field but `create` reads
  `genre`. The model takes the list of genres as the intended input of
  `Catalog.CreateTitle`.
- Deleting a title does not remove its reviews in the model, because the
  ledger and the catalog are separate states.
- `ReviewLedger.PostComment` does not check that the review belongs to the
  title in the URL. Neither does the source (`api_yamdb/api/views.py:97`).

## Findings

| source | as written | input that shows it | evidently intended | confidence | as-written member | corrected member |
|---|---|---|---|---|---|---|
| api_yamdb/api/serializers.py:52-55 | `.username` is read off a queryset, which has no such attribute | a new username with an email already stored | compare with the single matching user's username and refuse with 400 | high; not executed | AsWritten.TakenEmailCrashesAsWritten | Identity.SignupRejections |
| api_yamdb/api/serializers.py:7-17 | the serializer inherits the user model's unique-username check, which refuses a stored username before `validate` (so in signup line 48 is never reached) | a re-signup with a stored user's exact (username, email) pair | accept a returning user's own pair and send a new code | medium; not executed | AsWritten.ResignupRefusedAsWritten | Identity.SignUpIdempotent |
| api_yamdb/api/serializers.py:48-51 | in `set_profile` the serializer is bound to the requester's row, so the unique-username validator lets the own name through, and `.email` is read off a queryset | a profile update resending the requester's own username and email | compare with the single matching user's email and accept the requester's own pair | high; not executed | AsWritten.OwnPairCrashesAsWritten | Identity.SetProfile |
| api_yamdb/api/views.py:46 | the email field may be blank, so an absent email skips `validate_email` (its `None` branch at serializers.py:38 is dead) and `validated_data['email']` raises | a new username sent without an email | refuse the missing email with 400 | high; not executed | AsWritten.MissingEmailCrashesAsWritten | Identity.SignupRejections |
| api_yamdb/api/views.py:48-53 | the user is fetched with a 404 before `get_or_create`, and the fresh code is part of the lookup | the first signup on an empty registry, `alice` / `alice@example.com` | create the user if new, and store the fresh code on the existing one otherwise | high; not executed | AsWritten.FirstSignupAsWritten | Identity.SignUp |
| api_yamdb/api/serializers.py:21 | `self.user` is not an attribute of the serializer | any valid account creation by an admin | generate the code for the account being created | high; not executed | AsWritten.AdminCreateFailsAsWritten | Identity.CreateUser |
| api_yamdb/api/permissions.py:35 | `role` is read from the anonymous user, which has none | an anonymous POST | refuse the anonymous writer with 401 | medium; not executed | AsWritten.AnonymousWriteCrashesAsWritten | Permissions.AdminOrReadOnlyRule |

=== FILE: aswritten.dfy ===
/**
 The endpoints exactly as the repository writes them, where that differs
 from the evident intent modelled in Identity and Permissions, each with a
 lemma exhibiting the difference on a concrete or general input.
 */
module AsWritten {
  import opened Outcomes
  import opened Roles
  import opened Permissions
  import opened Identity

  /**
   `UserSerializer` validation as written. `username` is a unique column of
   the user model, so the serializer's field validation refuses a stored
   username before `validate` runs: the first check of `validate` is never
   reached. The email column may be blank, so an absent email skips
   `validate_email`, passes `validate`, and the first read of
   `validated_data['email']` raises. The second check of `validate` reads
   `.username` off a queryset, which raises, so a new username with an email
   already stored ends in a server error.
   */
  function ValidateSignupAsWritten(reg: Registry, req: SignupRequest): (r: Result<Credentials>)
    ensures r.Ok? ==> ValidateSignup(reg, req).Ok?
    ensures ValidateUsername(req.username).Ok? && req.username.value in reg.users ==> r == Err(Invalid(UsernameTaken))
    ensures ValidateUsername(req.username).Ok? && req.username.value !in reg.users && req.email.None? ==>
              r == Err(ServerError)
  {
    var username :- ValidateUsername(req.username);
    if username in reg.users then Err(Invalid(UsernameTaken))
    else if req.email.None? then Err(ServerError)
    else
      var email :- ValidateEmail(req.email);
      if exists name :: name in reg.users && reg.users[name].email == email then Err(ServerError)
      else Ok(Credentials(username, email))
  }

  /** A new username with a stored email crashes as written, where the intended check refuses it with 400. */
  lemma TakenEmailCrashesAsWritten(reg: Registry, newcomer: string, holder: string)
    requires Valid(reg) && holder in reg.users
    requires newcomer !in reg.users && newcomer != Me && newcomer != ""
    ensures var req := SignupRequest(Some(newcomer), Some(reg.users[holder].email), None);
            && ValidateSignupAsWritten(reg, req) == Err(ServerError)
            && ValidateSignup(reg, req) == Err(Invalid(EmailTaken))
  {
    assert Stored(reg, holder);
    var req := SignupRequest(Some(newcomer), Some(reg.users[holder].email), None);
    assert EmailClash(reg, req.username, req.email);
  }

  /** A new username without an email crashes as written, where the intended check refuses it with 400. */
  lemma MissingEmailCrashesAsWritten(reg: Registry, newcomer: string)
    requires Valid(reg) && newcomer !in reg.users && newcomer != Me && newcomer != ""
    ensures var req := SignupRequest(Some(newcomer), None, None);
            && ValidateSignupAsWritten(reg, req) == Err(ServerError)
            && ValidateSignup(reg, req) == Err(Invalid(MissingEmail))
  {
  }

  /** Re-sending a stored pair is refused as written, so no user can ever sign up again for a new code. */
  lemma ResignupRefusedAsWritten(reg: Registry, name: string)
    requires Valid(reg) && name in reg.users
    ensures var req := SignupRequest(Some(name), Some(reg.users[name].email), None);
            && ValidateSignupAsWritten(reg, req) == Err(Invalid(UsernameTaken))
            && ValidateSignup(reg, req).Ok?
  {
    assert Stored(reg, name);
    SignupValidationExact(reg, SignupRequest(Some(name), Some(reg.users[name].email), None));
  }

  /**
   `sign_up` as written (with the intended validation): the user is fetched
   with a 404 before it is created, and `get_or_create` includes the fresh
   code in its lookup, so a stored user whose code differs is inserted a
   second time and the username constraint fires.
   */
  function SignUpAsWritten(reg: Registry, req: SignupRequest, code: string): (r: Result<Signup>)
    ensures r.Ok? ==> req.username.Some? && req.username.value in reg.users && r.value.registry == reg
  {
    var cred :- ValidateSignup(reg, req);
    if cred.username !in reg.users then Err(NotFound)
    else
      var u := reg.users[cred.username];
      if u.code != code then Err(IntegrityError)
      else Ok(Signup(reg, u, Mail(cred.email, u.code)))
  }

  /** As written, no signup ever adds a user: a newcomer always gets 404, where the intended one registers them. */
  lemma NewcomerGets404AsWritten(reg: Registry, req: SignupRequest, code: string)
    requires Valid(reg) && ValidateSignup(reg, req).Ok? && req.username.value !in reg.users
    ensures SignUpAsWritten(reg, req, code) == Err(NotFound)
    ensures SignUp(reg, req, code).Ok?
    ensures SignUp(reg, req, code).value.registry.users.Keys == reg.users.Keys + {req.username.value}
  {
  }

  /** The smallest witness: the first signup on an empty registry. */
  lemma FirstSignupAsWritten()
    ensures SignUpAsWritten(EmptyRegistry(), SignupRequest(Some("alice"), Some("alice@example.com"), None), "c0de")
            == Err(NotFound)
    ensures SignUp(EmptyRegistry(), SignupRequest(Some("alice"), Some("alice@example.com"), None), "c0de").Ok?
  {
    var req := SignupRequest(Some("alice"), Some("alice@example.com"), None);
    assert ValidateUsername(req.username) == Ok("alice");
    assert ValidateEmail(req.email) == Ok("alice@example.com");
    assert !EmailClash(EmptyRegistry(), req.username, req.email);
  }

  /**
   `UserSerializer.create` as written, after the as-written validation:
   `self.user` is not an attribute of the serializer, so every admin-created
   account ends in a server error.
   */
  function CreateUserAsWritten(reg: Registry, actor: Actor, req: SignupRequest, code: string)
    : (r: Result<Profile>)
    ensures r.Err?
    ensures !AdminHasPermission(Post, actor) ==> r == Err(Denial(actor))
  {
    if !AdminHasPermission(Post, actor) then Err(Denial(actor))
    else
      var cred :- ValidateSignupAsWritten(reg, req);
      Err(ServerError)
  }

  /** An admin creating a fresh account fails as written and succeeds as intended. */
  lemma AdminCreateFailsAsWritten(reg: Registry, actor: Actor, req: SignupRequest, code: string)
    requires Valid(reg) && AdminHasPermission(Post, actor)
    requires ValidateSignup(reg, req).Ok? && req.username.value !in reg.users
    ensures CreateUserAsWritten(reg, actor, req, code) == Err(ServerError)
    ensures CreateUser(reg, actor, req, code).Ok?
  {
    SignupValidationExact(reg, req);
  }

  /**
   `set_profile` as written. The serializer is bound to the requester's row,
   so the unique-username validator refuses only another user's name, and the
   requester's own name reaches `validate`. There both checks read an
   attribute off a queryset: a sent username that is stored, or a sent email
   that is stored, ends in a server error.
   */
  function SetProfileAsWritten(reg: Registry, actor: Actor, patch: ProfilePatch): (r: Result<Profile>)
    requires Valid(reg)
    ensures r.Ok? ==> r == SetProfile(reg, actor, patch)
    ensures (&& actor.Authenticated? && FindById(reg, actor.id).Some?
             && patch.username == Some(FindById(reg, actor.id).value) && patch.email != Some("")) ==>
              r == Err(ServerError)
    ensures (&& actor.Authenticated? && FindById(reg, actor.id).Some?
             && patch.username.None? && patch.email.Some? && patch.email.value != ""
             && exists name :: name in reg.users && reg.users[name].email == patch.email.value) ==>
              r == Err(ServerError)
  {
    if actor.Anonymous? then Err(NotAuthenticated)
    else
      match FindById(reg, actor.id)
      case None => Err(NotFound)
      case Some(key) =>
        if patch.username.Some? && patch.username.value != key && patch.username.value in reg.users then
          Err(Invalid(UsernameTaken))
        else if patch.username.Some? && ValidateUsername(patch.username).Err? then
          Err(ValidateUsername(patch.username).failure)
        else if patch.email.Some? && ValidateEmail(patch.email).Err? then
          Err(ValidateEmail(patch.email).failure)
        else if patch.username.Some? && patch.username.value in reg.users then Err(ServerError)
        else if patch.email.Some? && exists name :: name in reg.users && reg.users[name].email == patch.email.value then
          Err(ServerError)
        else
          var u := Patched(reg.users[key], patch);
          Ok(Profile(Registry((reg.users - {key})[u.username := u], reg.nextId), u))
  }

  /** Re-sending one's own username and email crashes as written, where the intended update succeeds. */
  lemma OwnPairCrashesAsWritten(reg: Registry, actor: Actor)
    requires Valid(reg) && actor.Authenticated? && FindById(reg, actor.id).Some?
    ensures var key := FindById(reg, actor.id).value;
            var patch := ProfilePatch(Some(key), Some(reg.users[key].email), None, None);
            && SetProfileAsWritten(reg, actor, patch) == Err(ServerError)
            && SetProfile(reg, actor, patch).Ok?
  {
    var key := FindById(reg, actor.id).value;
    var patch := ProfilePatch(Some(key), Some(reg.users[key].email), None, None);
    assert Stored(reg, key);
    assert !EmailClash(reg, patch.username, patch.email) by {
      forall name | name in reg.users && Some(reg.users[name].email) == patch.email
        ensures Some(reg.users[name].username) == patch.username
      {
        assert Stored(reg, name);
      }
    }
  }

  /** What a permission check can end in when it reads an attribute the user lacks. */
  datatype Verdict = Allow | Deny | Crash

  /**
   `UserIsAdminOrReadOnly.has_permission` as written: the anonymous user has
   false staff and superuser flags but no `role` attribute, so a write by it
   raises instead of being refused.
   */
  function AdminOrReadOnlyAsWritten(m: HttpMethod, a: Actor): (v: Verdict)
    ensures v == Allow <==> AdminOrReadOnlyHasPermission(m, a)
  {
    if IsSafe(m) then Allow
    else if a.Anonymous? then Crash
    else if a.isStaff || a.isSuperuser || a.role == AdminRole then Allow
    else Deny
  }

  /** An anonymous write crashes as written, where the intended check answers 401. */
  lemma AnonymousWriteCrashesAsWritten(m: HttpMethod)
    requires !IsSafe(m)
    ensures AdminOrReadOnlyAsWritten(m, Anonymous) == Crash
    ensures !AdminOrReadOnlyHasPermission(m, Anonymous) && Denial(Anonymous) == NotAuthenticated
  {
  }
}

=== FILE: catalog.dfy ===
/**
 The catalog tables: categories and genres with unique slugs, titles with an
 optional category, and the GenreTitle link table; the delete rules of their
 foreign keys; and title creation with get-or-create of its genres.
 */
module Catalog {
  import opened Outcomes

  type CategoryId = nat
  type GenreId = nat
  type TitleId = nat

  datatype Category = Category(name: string, slug: string)
  datatype Genre = Genre(name: string, slug: string)
  datatype Title = Title(name: string, year: int, description: Option<string>, category: Option<CategoryId>)

  /** One row of the many-to-many table between genres and titles. */
  datatype GenreTitle = GenreTitle(genre: GenreId, title: TitleId)

  /** The catalog tables; `nextId` allocates primary keys. */
  datatype Store = Store(
    categories: map<CategoryId, Category>,
    genres: map<GenreId, Genre>,
    titles: map<TitleId, Title>,
    links: seq<GenreTitle>,
    nextId: nat)

  function EmptyStore(): (s: Store)
    ensures Valid(s)
  {
    Store(map[], map[], map[], [], 0)
  }

  /** `Category.slug` is unique. */
  ghost predicate CategorySlugsUnique(categories: map<CategoryId, Category>) {
    forall a, b :: a in categories && b in categories && a != b ==> categories[a].slug != categories[b].slug
  }

  /** `Genre.slug` is unique. */
  ghost predicate GenreSlugsUnique(genres: map<GenreId, Genre>) {
    forall a, b :: a in genres && b in genres && a != b ==> genres[a].slug != genres[b].slug
  }

  /** Every foreign key points at a stored row. */
  ghost predicate ReferencesResolve(s: Store) {
    && (forall t :: t in s.titles && s.titles[t].category.Some? ==> s.titles[t].category.value in s.categories)
    && (forall i :: 0 <= i < |s.links| ==> s.links[i].genre in s.genres && s.links[i].title in s.titles)
  }

  ghost predicate Valid(s: Store) {
    && (forall c :: c in s.categories ==> c < s.nextId)
    && (forall g :: g in s.genres ==> g < s.nextId)
    && (forall t :: t in s.titles ==> t < s.nextId)
    && CategorySlugsUnique(s.categories)
    && GenreSlugsUnique(s.genres)
    && ReferencesResolve(s)
  }

  // ---------------------------------------------------------------------
  // Categories and genres
  // ---------------------------------------------------------------------

  datatype CreatedId = CreatedId(store: Store, id: nat)

  /** Inserting a category; the unique slug refuses a second category with the same slug. */
  function CreateCategory(s: Store, c: Category): (r: Result<CreatedId>)
    requires Valid(s)
    ensures r.Ok? <==> forall k :: k in s.categories ==> s.categories[k].slug != c.slug
    ensures r.Err? ==> r.failure == Invalid(SlugTaken)
    ensures r.Ok? ==> && Valid(r.value.store)
                      && r.value.id !in s.categories
                      && r.value.store == s.(categories := s.categories[r.value.id := c], nextId := r.value.store.nextId)
  {
    if exists k :: k in s.categories && s.categories[k].slug == c.slug then Err(Invalid(SlugTaken))
    else Ok(CreatedId(s.(categories := s.categories[s.nextId := c], nextId := s.nextId + 1), s.nextId))
  }

  /** Inserting a genre; the unique slug refuses a second genre with the same slug. */
  function CreateGenre(s: Store, g: Genre): (r: Result<CreatedId>)
    requires Valid(s)
    ensures r.Ok? <==> forall k :: k in s.genres ==> s.genres[k].slug != g.slug
    ensures r.Err? ==> r.failure == Invalid(SlugTaken)
    ensures r.Ok? ==> && Valid(r.value.store)
                      && r.value.id !in s.genres
                      && r.value.store == s.(genres := s.genres[r.value.id := g], nextId := r.value.store.nextId)
  {
    if exists k :: k in s.genres && s.genres[k].slug == g.slug then Err(Invalid(SlugTaken))
    else Ok(CreatedId(s.(genres := s.genres[s.nextId := g], nextId := s.nextId + 1), s.nextId))
  }

  /**
   Deleting a category: `Title.category` is SET_NULL, so its titles lose
   their category and are otherwise kept as they were.
   */
  function DeleteCategory(s: Store, id: CategoryId): (r: Result<Store>)
    requires Valid(s)
    ensures r.Err? <==> id !in s.categories
    ensures r.Err? ==> r.failure == NotFound
    ensures r.Ok? ==>
              var t := r.value;
              && Valid(t)
              && t.categories == s.categories - {id}
              && t.titles.Keys == s.titles.Keys
              && (forall k :: k in t.titles ==> t.titles[k].category != Some(id))
              && (forall k :: k in t.titles ==>
                    t.titles[k].(category := s.titles[k].category) == s.titles[k])
              && (forall k :: k in t.titles && s.titles[k].category != Some(id) ==> t.titles[k] == s.titles[k])
              && t.genres == s.genres && t.links == s.links
  {
    if id !in s.categories then Err(NotFound)
    else
      var titles := map k | k in s.titles ::
        if s.titles[k].category == Some(id) then s.titles[k].(category := None) else s.titles[k];
      Ok(s.(categories := s.categories - {id}, titles := titles))
  }

  /** Which rows a delete cascades from: a genre or a title. */
  datatype Ref = GenreRef(genre: GenreId) | TitleRef(title: TitleId)

  predicate References(l: GenreTitle, ref: Ref) {
    match ref
    case GenreRef(g) => l.genre == g
    case TitleRef(t) => l.title == t
  }

  /** The link rows left after a CASCADE from `ref`: exactly those not referencing it. */
  function Unlink(links: seq<GenreTitle>, ref: Ref): (r: seq<GenreTitle>)
    ensures forall l :: multiset(r)[l] == if References(l, ref) then 0 else multiset(links)[l]
    ensures forall i :: 0 <= i < |r| ==> !References(r[i], ref)
    ensures forall l :: l in r <==> l in links && !References(l, ref)
  {
    if |links| == 0 then []
    else
      var rest := Unlink(links[1..], ref);
      assert links == [links[0]] + links[1..];
      if References(links[0], ref) then rest else [links[0]] + rest
  }

  /** Deleting a genre: its GenreTitle rows CASCADE; titles and other links stay. */
  function DeleteGenre(s: Store, id: GenreId): (r: Result<Store>)
    requires Valid(s)
    ensures r.Err? <==> id !in s.genres
    ensures r.Err? ==> r.failure == NotFound
    ensures r.Ok? ==>
              var t := r.value;
              && Valid(t)
              && t.genres == s.genres - {id}
              && (forall l :: multiset(t.links)[l] == if l.genre == id then 0 else multiset(s.links)[l])
              && t.titles == s.titles && t.categories == s.categories
  {
    if id !in s.genres then Err(NotFound)
    else
      var t := s.(genres := s.genres - {id}, links := Unlink(s.links, GenreRef(id)));
      assert ReferencesResolve(t) by {
        forall i | 0 <= i < |t.links| ensures t.links[i].genre in t.genres && t.links[i].title in t.titles {
          assert t.links[i] in s.links;
        }
      }
      Ok(t)
  }

  /** Deleting a title: its GenreTitle rows CASCADE; genres and other links stay. */
  function DeleteTitle(s: Store, id: TitleId): (r: Result<Store>)
    requires Valid(s)
    ensures r.Err? <==> id !in s.titles
    ensures r.Err? ==> r.failure == NotFound
    ensures r.Ok? ==>
              var t := r.value;
              && Valid(t)
              && t.titles == s.titles - {id}
              && (forall l :: multiset(t.links)[l] == if l.title == id then 0 else multiset(s.links)[l])
              && t.genres == s.genres && t.categories == s.categories
  {
    if id !in s.titles then Err(NotFound)
    else
      var t := s.(titles := s.titles - {id}, links := Unlink(s.links, TitleRef(id)));
      assert ReferencesResolve(t) by {
        forall i | 0 <= i < |t.links| ensures t.links[i].genre in t.genres && t.links[i].title in t.titles {
          assert t.links[i] in s.links;
        }
      }
      Ok(t)
  }

  // ---------------------------------------------------------------------
  // TitleSerializer.create
  // ---------------------------------------------------------------------

  /**
   `Genre.objects.get_or_create(name=..., slug=...)`: the stored genre with
   exactly that name and slug, or a new one; a slug already held under
   another name makes the insert violate the unique slug.
   */
  function GetOrCreateGenre(s: Store, spec: Genre): (r: Result<CreatedId>)
    requires Valid(s)
    ensures r.Err? <==> exists g :: g in s.genres && s.genres[g].slug == spec.slug && s.genres[g].name != spec.name
    ensures r.Err? ==> r.failure == IntegrityError
    ensures r.Ok? ==>
              var t, id := r.value.store, r.value.id;
              && Valid(t)
              && id in t.genres && t.genres[id] == spec
              && t.titles == s.titles && t.categories == s.categories && t.links == s.links
              && (forall g :: g in s.genres ==> g in t.genres && t.genres[g] == s.genres[g])
              && (id in s.genres ==> t == s)
              && (id !in s.genres ==> (forall g :: g in s.genres ==> s.genres[g] != spec)
                                      && t == s.(genres := s.genres[id := spec], nextId := t.nextId))
  {
    if exists g :: g in s.genres && s.genres[g].slug == spec.slug then
      var g :| g in s.genres && s.genres[g].slug == spec.slug;
      if s.genres[g].name != spec.name then Err(IntegrityError) else Ok(CreatedId(s, g))
    else
      Ok(CreatedId(s.(genres := s.genres[s.nextId := spec], nextId := s.nextId + 1), s.nextId))
  }

  datatype TitleData = TitleData(name: string, year: int, description: Option<string>, category: Option<CategoryId>)

  function TitleOf(d: TitleData): Title {
    Title(d.name, d.year, d.description, d.category)
  }

  /**
   The k-th requested genre cannot be got or created: its slug is already
   held under another name, by a stored genre or by an earlier request.
   */
  ghost predicate Clash(genres: map<GenreId, Genre>, specs: seq<Genre>, k: int)
    requires 0 <= k < |specs|
  {
    || (exists g :: g in genres && genres[g].slug == specs[k].slug && genres[g].name != specs[k].name)
    || (exists j :: 0 <= j < k && specs[j].slug == specs[k].slug && specs[j].name != specs[k].name)
  }

  /** Creation fails on an unknown category, or on a genre whose slug clashes. */
  ghost predicate CreateFails(s: Store, d: TitleData, genres: Option<seq<Genre>>) {
    || (d.category.Some? && d.category.value !in s.categories)
    || (genres.Some? && exists k :: 0 <= k < |genres.value| && Clash(s.genres, genres.value, k))
  }

  function LinkCount(genres: Option<seq<Genre>>): nat {
    if genres.None? then 0 else |genres.value|
  }

  /** Genres stored before are kept, and every other genre is one of the first `i` requests. */
  ghost predicate GenresGrow(s: Store, specs: seq<Genre>, cur: Store, i: int)
    requires 0 <= i <= |specs|
  {
    && (forall g :: g in s.genres ==> g in cur.genres && cur.genres[g] == s.genres[g])
    && (forall g :: g in cur.genres ==> g in s.genres || cur.genres[g] in specs[..i])
  }

  /** The links before are kept, followed by one link per request to a genre equal to it. */
  ghost predicate LinksFor(s: Store, id: TitleId, specs: seq<Genre>, cur: Store, i: nat) {
    && |cur.links| == |s.links| + i && cur.links[..|s.links|] == s.links
    && (forall k :: |s.links| <= k < |cur.links| ==>
          && cur.links[k].title == id
          && cur.links[k].genre in cur.genres
          && 0 <= k - |s.links| < |specs|
          && cur.genres[cur.links[k].genre] == specs[k - |s.links|])
  }

  /**
   What the genre loop of `CreateTitle` has achieved after the first `i`
   requested genres: a valid store holding the new title, genres grown only
   by requests, one link per request, and no clash so far.
   */
  ghost predicate Progress(s: Store, id: TitleId, specs: seq<Genre>, cur: Store, i: int) {
    && 0 <= i <= |specs|
    && Valid(cur)
    && id in cur.titles
    && GenresGrow(s, specs, cur, i)
    && LinksFor(s, id, specs, cur, i)
    && (forall k :: 0 <= k < i ==> !Clash(s.genres, specs, k))
  }

  /** The store after handling request `i`: its genre got or created, and linked to the title. */
  function Step(cur: Store, spec: Genre, id: TitleId): Store
    requires Valid(cur) && GetOrCreateGenre(cur, spec).Ok?
  {
    var st := GetOrCreateGenre(cur, spec).value;
    st.store.(links := st.store.links + [GenreTitle(st.id, id)])
  }

  lemma StepKeepsValid(cur: Store, spec: Genre, id: TitleId)
    requires Valid(cur) && id in cur.titles && GetOrCreateGenre(cur, spec).Ok?
    ensures Valid(Step(cur, spec, id)) && id in Step(cur, spec, id).titles
    ensures Step(cur, spec, id).titles == cur.titles && Step(cur, spec, id).categories == cur.categories
  {
    var st := GetOrCreateGenre(cur, spec).value;
    var next := Step(cur, spec, id);
    forall k | 0 <= k < |next.links| ensures next.links[k].genre in next.genres && next.links[k].title in next.titles {
      if k < |st.store.links| {
        assert next.links[k] == st.store.links[k];
      }
    }
  }

  lemma StepKeepsGenres(s: Store, specs: seq<Genre>, cur: Store, i: int, id: TitleId)
    requires 0 <= i < |specs| && Valid(cur) && GenresGrow(s, specs, cur, i)
    requires GetOrCreateGenre(cur, specs[i]).Ok?
    ensures GenresGrow(s, specs, Step(cur, specs[i], id), i + 1)
  {
    var next := Step(cur, specs[i], id);
    assert specs[..i + 1] == specs[..i] + [specs[i]];
    forall g | g in next.genres ensures g in s.genres || next.genres[g] in specs[..i + 1] {
      if g in cur.genres {
        assert next.genres[g] == cur.genres[g];
      }
    }
  }

  lemma StepKeepsLinks(s: Store, id: TitleId, specs: seq<Genre>, cur: Store, i: int)
    requires 0 <= i < |specs| && Valid(cur) && LinksFor(s, id, specs, cur, i)
    requires GetOrCreateGenre(cur, specs[i]).Ok?
    ensures LinksFor(s, id, specs, Step(cur, specs[i], id), i + 1)
  {
    var st := GetOrCreateGenre(cur, specs[i]).value;
    AppendLink(s, id, specs, cur, i, st.id, st.store.genres);
  }

  /** Appending a link to a genre equal to request `i`, in a genre table that only grew. */
  lemma AppendLink(s: Store, id: TitleId, specs: seq<Genre>, cur: Store, i: nat,
                   g: GenreId, genres: map<GenreId, Genre>)
    requires i < |specs| && LinksFor(s, id, specs, cur, i)
    requires forall h :: h in cur.genres ==> h in genres && genres[h] == cur.genres[h]
    requires g in genres && genres[g] == specs[i]
    ensures LinksFor(s, id, specs, cur.(genres := genres, links := cur.links + [GenreTitle(g, id)]), i + 1)
  {
    var next := cur.(genres := genres, links := cur.links + [GenreTitle(g, id)]);
    var n := |s.links|;
    assert next.links[..n] == cur.links[..n];
    forall k | n <= k < |next.links|
      ensures && next.links[k].title == id
              && next.links[k].genre in next.genres
              && next.genres[next.links[k].genre] == specs[k - n]
    {
      if k < |cur.links| {
        assert next.links[k] == cur.links[k];
      }
    }
  }

  /** The next request fails exactly when it clashes. */
  lemma StepFailsOnClash(s: Store, id: TitleId, specs: seq<Genre>, cur: Store, i: int)
    requires Progress(s, id, specs, cur, i) && i < |specs|
    ensures GetOrCreateGenre(cur, specs[i]).Err? <==> Clash(s.genres, specs, i)
  {
    var n := |s.links|;
    if GetOrCreateGenre(cur, specs[i]).Err? {
      var g :| g in cur.genres && cur.genres[g].slug == specs[i].slug && cur.genres[g].name != specs[i].name;
      if g !in s.genres {
        assert cur.genres[g] in specs[..i];
        var j :| 0 <= j < i && specs[..i][j] == cur.genres[g];
        assert specs[j] == cur.genres[g];
      }
    } else {
      forall h | h in s.genres && s.genres[h].slug == specs[i].slug ensures s.genres[h].name == specs[i].name {
        assert cur.genres[h] == s.genres[h];
      }
      forall j | 0 <= j < i && specs[j].slug == specs[i].slug ensures specs[j].name == specs[i].name {
        assert cur.genres[cur.links[n + j].genre] == specs[j];
      }
    }
  }

  /** Handling one more request and adding its link keeps the loop's progress. */
  lemma StepKeepsProgress(s: Store, id: TitleId, specs: seq<Genre>, cur: Store, i: int)
    requires Progress(s, id, specs, cur, i) && i < |specs|
    requires GetOrCreateGenre(cur, specs[i]).Ok?
    ensures Progress(s, id, specs, Step(cur, specs[i], id), i + 1)
    ensures Step(cur, specs[i], id).titles == cur.titles && Step(cur, specs[i], id).categories == cur.categories
  {
    StepFailsOnClash(s, id, specs, cur, i);
    StepKeepsValid(cur, specs[i], id);
    StepKeepsGenres(s, specs, cur, i, id);
    StepKeepsLinks(s, id, specs, cur, i);
  }

  /**
   `TitleSerializer.create`: store the title; without a `genre` field that
   is all. With a list, each listed genre is fetched by (name, slug) or else
   inserted, and one GenreTitle row is added for each entry of the list.
   */
  method CreateTitle(s: Store, d: TitleData, genres: Option<seq<Genre>>) returns (r: Result<CreatedId>)
    requires Valid(s)
    ensures r.Err? <==> CreateFails(s, d, genres)
    ensures r.Err? ==> r.failure == (if d.category.Some? && d.category.value !in s.categories
                                     then Invalid(UnknownCategory) else IntegrityError)
    ensures r.Ok? ==>
              var t, id := r.value.store, r.value.id;
              && Valid(t)
              && id !in s.titles && t.titles == s.titles[id := TitleOf(d)]
              && t.categories == s.categories
              && (forall g :: g in s.genres ==> g in t.genres && t.genres[g] == s.genres[g])
              && (forall g :: g in t.genres ==> g in s.genres || (genres.Some? && t.genres[g] in genres.value))
              && |t.links| == |s.links| + LinkCount(genres)
              && t.links[..|s.links|] == s.links
    ensures r.Ok? && genres.Some? ==>
              var t, id, specs := r.value.store, r.value.id, genres.value;
              forall k :: |s.links| <= k < |t.links| ==>
                && t.links[k].title == id
                && t.links[k].genre in t.genres
                && t.genres[t.links[k].genre] == specs[k - |s.links|]
                && (forall g :: g in s.genres && s.genres[g] == specs[k - |s.links|] ==> t.links[k].genre == g)
    ensures r.Ok? && genres.None? ==> r.value.store.genres == s.genres && r.value.store.links == s.links
  {
    if d.category.Some? && d.category.value !in s.categories {
      return Err(Invalid(UnknownCategory));
    }
    var id := s.nextId;
    var cur := s.(titles := s.titles[id := TitleOf(d)], nextId := s.nextId + 1);
    if genres.None? {
      return Ok(CreatedId(cur, id));
    }
    var specs := genres.value;
    StartProgress(s, d, id, specs);
    var linked := LinkGenres(s, id, specs, cur);
    if linked.Err? {
      return Err(IntegrityError);
    }
    LoopDone(s, d, id, specs, linked.value);
    return Ok(CreatedId(linked.value, id));
  }

  /** The store with the new title and no genre handled yet is where the genre loop starts. */
  lemma StartProgress(s: Store, d: TitleData, id: TitleId, specs: seq<Genre>)
    requires Valid(s) && id == s.nextId
    requires !(d.category.Some? && d.category.value !in s.categories)
    ensures Progress(s, id, specs, s.(titles := s.titles[id := TitleOf(d)], nextId := s.nextId + 1), 0)
  {
    assert s.links[..|s.links|] == s.links;
  }

  /**
   The genre loop of `TitleSerializer.create`: get or create each listed
   genre in turn and link it to the title, stopping at the first clash.
   */
  method LinkGenres(s: Store, id: TitleId, specs: seq<Genre>, start: Store) returns (r: Result<Store>)
    requires Progress(s, id, specs, start, 0)
    ensures r.Err? <==> exists k :: 0 <= k < |specs| && Clash(s.genres, specs, k)
    ensures r.Err? ==> r.failure == IntegrityError
    ensures r.Ok? ==> Progress(s, id, specs, r.value, |specs|)
    ensures r.Ok? ==> r.value.titles == start.titles && r.value.categories == start.categories
  {
    var cur := start;
    var i := 0;
    while i < |specs|
      invariant Progress(s, id, specs, cur, i)
      invariant cur.titles == start.titles && cur.categories == start.categories
    {
      StepFailsOnClash(s, id, specs, cur, i);
      if GetOrCreateGenre(cur, specs[i]).Err? {
        return Err(IntegrityError);
      }
      StepKeepsProgress(s, id, specs, cur, i);
      cur := Step(cur, specs[i], id);
      i := i + 1;
    }
    return Ok(cur);
  }

  /** After the whole list: no entry clashed, and the store holds what `CreateTitle` promises. */
  lemma LoopDone(s: Store, d: TitleData, id: TitleId, specs: seq<Genre>, cur: Store)
    requires Valid(s) && id == s.nextId
    requires !(d.category.Some? && d.category.value !in s.categories)
    requires Progress(s, id, specs, cur, |specs|)
    requires cur.titles == s.titles[id := TitleOf(d)] && cur.categories == s.categories
    ensures !CreateFails(s, d, Some(specs))
    ensures id !in s.titles
    ensures forall g :: g in cur.genres ==> g in s.genres || cur.genres[g] in specs
    ensures forall k :: |s.links| <= k < |cur.links| ==>
              && cur.links[k].title == id
              && cur.links[k].genre in cur.genres
              && cur.genres[cur.links[k].genre] == specs[k - |s.links|]
              && (forall g :: g in s.genres && s.genres[g] == specs[k - |s.links|] ==> cur.links[k].genre == g)
  {
    assert specs[..|specs|] == specs;
    ExistingGenresReused(s, id, specs, cur);
  }

  /** A requested genre equal to a stored one is linked to that stored row, not a copy. */
  lemma ExistingGenresReused(s: Store, id: TitleId, specs: seq<Genre>, cur: Store)
    requires Progress(s, id, specs, cur, |specs|)
    ensures forall k, g :: |s.links| <= k < |cur.links| && g in s.genres && s.genres[g] == specs[k - |s.links|] ==>
              cur.links[k].genre == g
  {
    forall k, g | |s.links| <= k < |cur.links| && g in s.genres && s.genres[g] == specs[k - |s.links|]
      ensures cur.links[k].genre == g
    {
      assert cur.genres[g] == specs[k - |s.links|];
    }
  }
}

=== FILE: identity.dfy ===
/**
 The identity registry: user records keyed by username, signup with a
 confirmation code, the exchange of that code for a token, self-service
 profile updates and admin-created accounts.
 */
module Identity {
  import opened Outcomes
  import opened Roles
  import opened Permissions

  /** The username reserved for the self-profile route `users/me`. */
  const Me: string := "me"
  /** `AuthSerializer.username` max_length. */
  const UsernameMaxLength: nat := 100
  /** `AuthSerializer.confirmation_code` max_length. */
  const CodeMaxLength: nat := 255

  datatype User = User(
    id: UserId,
    username: string,
    email: string,
    role: Role,
    isStaff: bool,
    isSuperuser: bool,
    bio: string,
    code: string)

  /** The actor a request authenticated as this user is evaluated for. */
  function ActorOf(u: User): (a: Actor)
    ensures a.Authenticated? && a.id == u.id
    ensures IsAdmin(a) <==> u.isStaff || u.isSuperuser || u.role == AdminRole
  {
    Authenticated(u.id, u.role, u.isStaff, u.isSuperuser)
  }

  /** The user table; `nextId` is the primary-key allocator. */
  datatype Registry = Registry(users: map<string, User>, nextId: UserId)

  function EmptyRegistry(): (reg: Registry)
    ensures Valid(reg)
  {
    Registry(map[], 0)
  }

  /** One stored row: keyed by its username, id allocated, a legal name and an email. */
  ghost predicate Stored(reg: Registry, name: string)
    requires name in reg.users
  {
    var u := reg.users[name];
    && u.username == name
    && u.id < reg.nextId
    && name != Me
    && name != ""
    && u.email != ""
  }

  /**
   The registry invariant: every row well formed, and ids and emails unique
   (usernames are unique because they are the keys).
   */
  ghost predicate Valid(reg: Registry) {
    && (forall name :: name in reg.users ==> Stored(reg, name))
    && (forall a, b :: a in reg.users && b in reg.users && a != b ==>
          reg.users[a].id != reg.users[b].id && reg.users[a].email != reg.users[b].email)
  }

  // ---------------------------------------------------------------------
  // UserSerializer validation
  // ---------------------------------------------------------------------

  /** `validate_username`: the reserved name, then a missing or empty one, are refused. */
  function ValidateUsername(name: Option<string>): (r: Result<string>)
    ensures r.Ok? <==> name.Some? && name.value != Me && name.value != ""
    ensures r.Ok? ==> Some(r.value) == name
    ensures name == Some(Me) ==> r == Err(Invalid(ReservedUsername))
    ensures name.None? || name == Some("") ==> r == Err(Invalid(MissingUsername))
  {
    if name == Some(Me) then Err(Invalid(ReservedUsername))
    else if name.None? || name.value == "" then Err(Invalid(MissingUsername))
    else Ok(name.value)
  }

  /** `validate_email`: a missing or empty email is refused. */
  function ValidateEmail(email: Option<string>): (r: Result<string>)
    ensures r.Ok? <==> email.Some? && email.value != ""
    ensures r.Ok? ==> Some(r.value) == email
    ensures r.Err? ==> r == Err(Invalid(MissingEmail))
  {
    if email.None? || email.value == "" then Err(Invalid(MissingEmail)) else Ok(email.value)
  }

  /** `validate`, first check: the username belongs to a user with a different email. */
  predicate UsernameClash(reg: Registry, username: Option<string>, email: Option<string>) {
    username.Some? && username.value in reg.users && Some(reg.users[username.value].email) != email
  }

  /** `validate`, second check: the email belongs to a user with a different username. */
  predicate EmailClash(reg: Registry, username: Option<string>, email: Option<string>) {
    exists name :: name in reg.users && Some(reg.users[name].email) == email
                   && Some(reg.users[name].username) != username
  }

  /** Both `validate` checks, in the source's order. */
  function CheckPair(reg: Registry, username: Option<string>, email: Option<string>): (r: Result<()>)
    ensures r.Ok? <==> !UsernameClash(reg, username, email) && !EmailClash(reg, username, email)
  {
    if UsernameClash(reg, username, email) then Err(Invalid(UsernameTaken))
    else if EmailClash(reg, username, email) then Err(Invalid(EmailTaken))
    else Ok(())
  }

  /** A signup (or admin create) payload: `username`, `email` and the optional `bio`. */
  datatype SignupRequest = SignupRequest(username: Option<string>, email: Option<string>, bio: Option<string>)
  datatype Credentials = Credentials(username: string, email: string)

  /** A (username, email) pair that is new, or is exactly an existing user's pair. */
  ghost predicate PairFits(reg: Registry, username: string, email: string) {
    && (username in reg.users ==> reg.users[username].email == email)
    && (forall name :: name in reg.users && reg.users[name].email == email ==> name == username)
  }

  /** The whole `UserSerializer` validation of a signup payload. */
  function ValidateSignup(reg: Registry, req: SignupRequest): (r: Result<Credentials>)
    ensures r.Ok? ==> Some(r.value.username) == req.username && Some(r.value.email) == req.email
    ensures r.Ok? ==> r.value.username != Me && r.value.username != "" && r.value.email != ""
  {
    var username :- ValidateUsername(req.username);
    var email :- ValidateEmail(req.email);
    if CheckPair(reg, req.username, req.email).Err? then
      Err(CheckPair(reg, req.username, req.email).failure)
    else
      Ok(Credentials(username, email))
  }

  /** Signup validation accepts exactly the legal names and emails whose pair fits the registry. */
  lemma SignupValidationExact(reg: Registry, req: SignupRequest)
    requires Valid(reg)
    ensures ValidateSignup(reg, req).Ok?
            <==> && req.username.Some? && req.email.Some?
                 && req.username.value != Me && req.username.value != ""
                 && req.email.value != ""
                 && PairFits(reg, req.username.value, req.email.value)
  {
    if req.username.Some? && req.email.Some? {
      var u, e := req.username.value, req.email.value;
      if PairFits(reg, u, e) {
        assert !EmailClash(reg, req.username, req.email) by {
          forall name | name in reg.users && Some(reg.users[name].email) == req.email
            ensures Some(reg.users[name].username) == req.username
          {
            assert Stored(reg, name);
          }
        }
      } else if !UsernameClash(reg, req.username, req.email) {
        var name :| name in reg.users && reg.users[name].email == e && name != u;
        assert Stored(reg, name);
        assert EmailClash(reg, req.username, req.email);
      }
    }
  }

  /** The rejections signup validation promises, with the reason reported. */
  lemma SignupRejections(reg: Registry, req: SignupRequest)
    ensures req.username == Some(Me) ==> ValidateSignup(reg, req) == Err(Invalid(ReservedUsername))
    ensures req.username.None? || req.username == Some("") ==>
              ValidateSignup(reg, req) == Err(Invalid(MissingUsername))
    ensures ValidateUsername(req.username).Ok? && (req.email.None? || req.email == Some("")) ==>
              ValidateSignup(reg, req) == Err(Invalid(MissingEmail))
    ensures ValidateUsername(req.username).Ok? && ValidateEmail(req.email).Ok?
            && req.username.value in reg.users && reg.users[req.username.value].email != req.email.value ==>
              ValidateSignup(reg, req) == Err(Invalid(UsernameTaken))
    ensures ValidateUsername(req.username).Ok? && ValidateEmail(req.email).Ok?
            && !UsernameClash(reg, req.username, req.email)
            && (exists name :: name in reg.users && reg.users[name].email == req.email.value
                               && reg.users[name].username != req.username.value) ==>
              ValidateSignup(reg, req) == Err(Invalid(EmailTaken))
  {
  }

  // ---------------------------------------------------------------------
  // sign_up
  // ---------------------------------------------------------------------

  /** What is handed to the mail notifier: destination address and confirmation code. */
  datatype Mail = Mail(address: string, code: string)

  datatype Signup = Signup(registry: Registry, user: User, mail: Mail)

  /**
   `sign_up`: validate, then get-or-create the user for the pair with a fresh
   confirmation `code` (the token generator's output), and hand the stored
   code to the notifier.
   */
  function SignUp(reg: Registry, req: SignupRequest, code: string): (r: Result<Signup>)
    requires Valid(reg)
    ensures r.Ok? <==> ValidateSignup(reg, req).Ok?
    ensures r.Err? ==> r.failure == ValidateSignup(reg, req).failure
    ensures r.Ok? ==> Valid(r.value.registry)
    ensures r.Ok? ==>
              var s := r.value;
              && Some(s.user.username) == req.username && Some(s.user.email) == req.email
              && s.user.username in s.registry.users && s.registry.users[s.user.username] == s.user
              && s.user.code == code
              && s.mail == Mail(s.user.email, s.registry.users[s.user.username].code)
    ensures r.Ok? ==>
              && r.value.registry.users.Keys == reg.users.Keys + {r.value.user.username}
              && (forall name :: name in reg.users && name != r.value.user.username ==>
                    r.value.registry.users[name] == reg.users[name])
    ensures r.Ok? && req.username.value in reg.users ==>
              && r.value.user == reg.users[req.username.value].(code := code)
              && r.value.registry.nextId == reg.nextId
    ensures r.Ok? && req.username.value !in reg.users ==>
              && r.value.user.id == reg.nextId && r.value.user.bio == req.bio.GetOr("")
              && r.value.user.role == UserRole && !r.value.user.isStaff && !r.value.user.isSuperuser
  {
    match ValidateSignup(reg, req)
    case Err(f) => Err(f)
    case Ok(cred) =>
      var existing := cred.username in reg.users;
      var user :=
        if existing then reg.users[cred.username].(code := code)
        else User(reg.nextId, cred.username, cred.email, UserRole, false, false, req.bio.GetOr(""), code);
      var reg' := Registry(reg.users[cred.username := user], if existing then reg.nextId else reg.nextId + 1);
      assert Valid(reg') by {
        SignupValidationExact(reg, req);
        forall name | name in reg'.users ensures Stored(reg', name) {
          if name != cred.username { assert Stored(reg, name); }
        }
      }
      Ok(Signup(reg', user, Mail(cred.email, user.code)))
  }

  /** Signing up twice with the same pair leaves the same rows as signing up once with the later code. */
  lemma SignUpIdempotent(reg: Registry, req: SignupRequest, first: string, second: string)
    requires Valid(reg) && SignUp(reg, req, first).Ok?
    ensures var once := SignUp(reg, req, first).value.registry;
            && SignUp(once, req, second).Ok?
            && SignUp(once, req, second).value.registry == SignUp(reg, req, second).value.registry
            && SignUp(once, req, second).value.registry.users.Keys == once.users.Keys
  {
    var once := SignUp(reg, req, first).value.registry;
    SignupValidationExact(reg, req);
    SignupValidationExact(once, req);
    var u, e := req.username.value, req.email.value;
    forall name | name in once.users && once.users[name].email == e ensures name == u {
      assert once.users[u].email == e;
    }
  }

  /** A signup never stores a reserved, empty or colliding identity. */
  lemma SignUpNeverStoresReserved(reg: Registry, req: SignupRequest, code: string)
    requires Valid(reg) && SignUp(reg, req, code).Ok?
    ensures Me !in SignUp(reg, req, code).value.registry.users
    ensures "" !in SignUp(reg, req, code).value.registry.users
    ensures var users := SignUp(reg, req, code).value.registry.users;
            forall a, b :: a in users && b in users && a != b ==> users[a].email != users[b].email
  {
    var reg' := SignUp(reg, req, code).value.registry;
    assert forall name :: name in reg'.users ==> Stored(reg', name);
  }

  // ---------------------------------------------------------------------
  // get_token_for_user
  // ---------------------------------------------------------------------

  datatype TokenRequest = TokenRequest(username: Option<string>, code: Option<string>)

  /** The minted access token: the user's id and effective role at issuance. */
  datatype Token = Token(userId: UserId, role: Role)

  /** The two `AuthSerializer` fields are present, non-blank and within their max lengths. */
  predicate WellFormedTokenRequest(req: TokenRequest) {
    && req.username.Some? && req.username.value != "" && |req.username.value| <= UsernameMaxLength
    && req.code.Some? && req.code.value != "" && |req.code.value| <= CodeMaxLength
  }

  /** `AuthSerializer` field and object validation. */
  function ValidateTokenRequest(req: TokenRequest): (r: Result<(string, string)>)
    ensures r.Ok? <==> WellFormedTokenRequest(req)
    ensures r.Ok? ==> r.value == (req.username.value, req.code.value)
    ensures req.username.None? ==> r == Err(Invalid(MissingUsername))
    ensures req.username.Some? && req.username.value != "" && req.code.None? ==> r.Err?
  {
    if req.username.None? || req.username.value == "" then Err(Invalid(MissingUsername))
    else if |req.username.value| > UsernameMaxLength then Err(Invalid(FieldTooLong))
    else if req.code.None? || req.code.value == "" then Err(Invalid(MissingCode))
    else if |req.code.value| > CodeMaxLength then Err(Invalid(FieldTooLong))
    else Ok((req.username.value, req.code.value))
  }

  /**
   `get_token_for_user`: validate, look the user up by username (404 when
   unknown), compare the code exactly (400 on mismatch), and only then mint.
   */
  function ExchangeToken(reg: Registry, req: TokenRequest): (r: Result<Token>)
    ensures r.Ok? <==> && WellFormedTokenRequest(req)
                       && req.username.value in reg.users
                       && reg.users[req.username.value].code == req.code.value
    ensures r.Ok? ==> var u := reg.users[req.username.value];
                      r.value == Token(u.id, EffectiveRole(ActorOf(u)))
    ensures WellFormedTokenRequest(req) && req.username.value !in reg.users ==> r == Err(NotFound)
    ensures WellFormedTokenRequest(req) && req.username.value in reg.users
            && reg.users[req.username.value].code != req.code.value ==>
              r == Err(Invalid(CodeMismatch)) && Status(r.failure) == 400
  {
    var (username, code) :- ValidateTokenRequest(req);
    if username !in reg.users then Err(NotFound)
    else
      var u := reg.users[username];
      if code != u.code then Err(Invalid(CodeMismatch))
      else Ok(Token(u.id, EffectiveRole(ActorOf(u))))
  }

  /** The code mailed by a signup exchanges for a token of exactly the signed-up user. */
  lemma SignUpThenExchange(reg: Registry, req: SignupRequest, code: string)
    requires Valid(reg) && SignUp(reg, req, code).Ok?
    requires code != "" && |code| <= CodeMaxLength && |req.username.value| <= UsernameMaxLength
    ensures var s := SignUp(reg, req, code).value;
            ExchangeToken(s.registry, TokenRequest(req.username, Some(s.mail.code)))
              == Ok(Token(s.user.id, EffectiveRole(ActorOf(s.user))))
  {
  }

  /**
   Signup puts no bound on the username's length but the token request caps
   it at `UsernameMaxLength`: a user with a longer name can never get a token.
   */
  lemma LongUsernameLockedOut(reg: Registry, req: SignupRequest, code: string, sent: Option<string>)
    requires Valid(reg) && SignUp(reg, req, code).Ok? && |req.username.value| > UsernameMaxLength
    ensures SignUp(reg, req, code).value.user.username == req.username.value
    ensures ExchangeToken(SignUp(reg, req, code).value.registry, TokenRequest(req.username, sent))
            == Err(Invalid(FieldTooLong))
  {
  }

  /** A second signup replaces the code: the code mailed by the first no longer works. */
  lemma ResignupRevokesOldCode(reg: Registry, req: SignupRequest, first: string, second: string)
    requires Valid(reg) && SignUp(reg, req, first).Ok?
    requires first != second && first != "" && |first| <= CodeMaxLength
    requires |req.username.value| <= UsernameMaxLength
    ensures var once := SignUp(reg, req, first).value;
            && SignUp(once.registry, req, second).Ok?
            && ExchangeToken(SignUp(once.registry, req, second).value.registry,
                             TokenRequest(req.username, Some(once.mail.code)))
               == Err(Invalid(CodeMismatch))
  {
    SignUpIdempotent(reg, req, first, second);
  }

  // ---------------------------------------------------------------------
  // UserViewSet.set_profile
  // ---------------------------------------------------------------------

  /** The username of the row with primary key `id`, if any. */
  function FindById(reg: Registry, id: UserId): (r: Option<string>)
    requires Valid(reg)
    ensures r.Some? ==> r.value in reg.users && reg.users[r.value].id == id
    ensures r.None? ==> forall name :: name in reg.users ==> reg.users[name].id != id
  {
    if exists name :: name in reg.users && reg.users[name].id == id then
      var name :| name in reg.users && reg.users[name].id == id;
      Some(name)
    else
      None
  }

  /**
   A partial profile payload. `role` may be sent but the serializer exposes
   roles read-only, so it is discarded.
   */
  datatype ProfilePatch = ProfilePatch(
    username: Option<string>,
    email: Option<string>,
    bio: Option<string>,
    role: Option<Role>)

  datatype Profile = Profile(registry: Registry, user: User)

  /** Partial `UserSerializer` validation: field validators only for the fields sent. */
  function ValidatePatch(reg: Registry, patch: ProfilePatch): (r: Result<()>)
    ensures r.Ok? <==> && patch.username != Some(Me) && patch.username != Some("") && patch.email != Some("")
                       && !UsernameClash(reg, patch.username, patch.email)
                       && !EmailClash(reg, patch.username, patch.email)
    ensures patch.username == Some(Me) ==> r == Err(Invalid(ReservedUsername))
  {
    if patch.username.Some? && ValidateUsername(patch.username).Err? then
      Err(ValidateUsername(patch.username).failure)
    else if patch.email.Some? && ValidateEmail(patch.email).Err? then
      Err(ValidateEmail(patch.email).failure)
    else
      CheckPair(reg, patch.username, patch.email)
  }

  /** The requester's row with the patch applied: username, email and bio only. */
  function Patched(u: User, patch: ProfilePatch): User {
    u.(username := patch.username.GetOr(u.username),
       email := patch.email.GetOr(u.email),
       bio := patch.bio.GetOr(u.bio))
  }

  /** The username the patch gives row `key` is that row's own, or held by nobody. */
  predicate NameFree(reg: Registry, key: string, patch: ProfilePatch) {
    patch.username.GetOr(key) == key || patch.username.GetOr(key) !in reg.users
  }

  /**
   `set_profile`: an authenticated user reads or partially updates the row
   whose primary key is their own id; the serializer's validator for the
   unique username column refuses another user's name with a 400.
   */
  function SetProfile(reg: Registry, actor: Actor, patch: ProfilePatch): (r: Result<Profile>)
    requires Valid(reg)
    ensures r.Ok? <==> && actor.Authenticated? && FindById(reg, actor.id).Some?
                       && ValidatePatch(reg, patch).Ok?
                       && NameFree(reg, FindById(reg, actor.id).value, patch)
    ensures actor.Anonymous? ==> r == Err(NotAuthenticated)
    ensures actor.Authenticated? && FindById(reg, actor.id).None? ==> r == Err(NotFound)
    ensures actor.Authenticated? && FindById(reg, actor.id).Some? && ValidatePatch(reg, patch).Err? ==>
              r == Err(ValidatePatch(reg, patch).failure)
    ensures (&& actor.Authenticated? && FindById(reg, actor.id).Some? && ValidatePatch(reg, patch).Ok?
             && !NameFree(reg, FindById(reg, actor.id).value, patch)) ==> r == Err(Invalid(UsernameTaken))
    ensures r.Ok? ==> Valid(r.value.registry)
    ensures r.Ok? ==>
              && actor.Authenticated? && FindById(reg, actor.id).Some?
              && var prior := reg.users[FindById(reg, actor.id).value];
                 var u := r.value.user;
                 && u.id == actor.id
                 && u.role == prior.role && u.isStaff == prior.isStaff && u.isSuperuser == prior.isSuperuser
                 && u.code == prior.code
                 && u.username == patch.username.GetOr(prior.username)
                 && u.email == patch.email.GetOr(prior.email)
                 && u.bio == patch.bio.GetOr(prior.bio)
                 && u.username in r.value.registry.users
                 && r.value.registry.users[u.username] == u
    ensures r.Ok? ==>
              && r.value.registry.nextId == reg.nextId
              && (forall name :: name in reg.users && reg.users[name].id != actor.id ==>
                    name in r.value.registry.users && r.value.registry.users[name] == reg.users[name])
              && (forall name :: name in r.value.registry.users ==>
                    || name == r.value.user.username
                    || (name in reg.users && r.value.registry.users[name] == reg.users[name]))
  {
    if actor.Anonymous? then Err(NotAuthenticated)
    else
      match FindById(reg, actor.id)
      case None => Err(NotFound)
      case Some(key) =>
        var prior := reg.users[key];
        var _ :- ValidatePatch(reg, patch);
        var u := Patched(prior, patch);
        if u.username != key && u.username in reg.users then Err(Invalid(UsernameTaken))
        else
          var reg' := Registry((reg.users - {key})[u.username := u], reg.nextId);
          assert Valid(reg') by { PatchKeepsValid(reg, key, patch, reg'); }
          Ok(Profile(reg', u))
  }

  /**
   A partial update is checked against every stored row, the requester's own
   included, and a field left out counts as absent: resending one's own email
   without the username, or one's own username without the email, is refused.
   */
  lemma PartialPatchRefusals(reg: Registry, actor: Actor)
    requires Valid(reg) && actor.Authenticated? && FindById(reg, actor.id).Some?
    ensures var key := FindById(reg, actor.id).value;
            && SetProfile(reg, actor, ProfilePatch(None, Some(reg.users[key].email), None, None))
               == Err(Invalid(EmailTaken))
            && SetProfile(reg, actor, ProfilePatch(Some(key), None, None, None))
               == Err(Invalid(UsernameTaken))
  {
    var key := FindById(reg, actor.id).value;
    assert Stored(reg, key);
    assert EmailClash(reg, None, Some(reg.users[key].email));
  }

  /** The serializer exposes roles read-only: a role in the payload changes nothing. */
  lemma ProfileIgnoresRole(reg: Registry, actor: Actor, patch: ProfilePatch, role: Role)
    requires Valid(reg)
    ensures SetProfile(reg, actor, patch.(role := Some(role))) == SetProfile(reg, actor, patch)
  {
  }

  /** An empty payload (the GET form of the endpoint) returns the requester's own row and writes nothing. */
  lemma ProfileReadChangesNothing(reg: Registry, actor: Actor)
    requires Valid(reg) && actor.Authenticated? && FindById(reg, actor.id).Some?
    ensures var r := SetProfile(reg, actor, ProfilePatch(None, None, None, None));
            && r.Ok?
            && r.value.registry == reg
            && r.value.user == reg.users[FindById(reg, actor.id).value]
  {
    var key := FindById(reg, actor.id).value;
    var patch := ProfilePatch(None, None, None, None);
    assert !EmailClash(reg, patch.username, patch.email);
    assert Patched(reg.users[key], patch) == reg.users[key];
    assert (reg.users - {key})[key := reg.users[key]] == reg.users;
  }

  lemma PatchKeepsValid(reg: Registry, key: string, patch: ProfilePatch, reg': Registry)
    requires Valid(reg) && key in reg.users && ValidatePatch(reg, patch).Ok?
    requires var u := Patched(reg.users[key], patch);
             && !(u.username != key && u.username in reg.users)
             && reg' == Registry((reg.users - {key})[u.username := u], reg.nextId)
    ensures Valid(reg')
  {
    var prior := reg.users[key];
    var u := Patched(prior, patch);
    assert Stored(reg, key);
    forall name | name in reg'.users ensures Stored(reg', name) {
      if name != u.username { assert Stored(reg, name); }
    }
    forall a, b | a in reg'.users && b in reg'.users && a != b
      ensures reg'.users[a].id != reg'.users[b].id && reg'.users[a].email != reg'.users[b].email
    {
      if a == u.username || b == u.username {
        var other := if a == u.username then b else a;
        assert other in reg.users && other != key && reg'.users[other] == reg.users[other];
        assert Stored(reg, other);
        if patch.email.Some? {
          // the email check refuses an email held under another username
          assert !EmailClash(reg, patch.username, patch.email);
          assert Some(reg.users[other].username) == patch.username ==> other == u.username;
        }
      }
    }
  }

  // ---------------------------------------------------------------------
  // UserViewSet create (admin)
  // ---------------------------------------------------------------------

  /**
   An admin creates an account through `UserSerializer.create`: validated
   username and email, optional bio, the default role, and a confirmation
   code from the token generator. A stored username is refused with a 400
   by the serializer's validator for the unique username column.
   */
  function CreateUser(reg: Registry, actor: Actor, req: SignupRequest, code: string)
    : (r: Result<Profile>)
    requires Valid(reg)
    ensures r.Ok? <==> && AdminHasPermission(Post, actor) && ValidateSignup(reg, req).Ok?
                       && req.username.value !in reg.users
    ensures !AdminHasPermission(Post, actor) ==> r == Err(Denial(actor))
    ensures AdminHasPermission(Post, actor) && ValidateSignup(reg, req).Err? ==>
              r == Err(ValidateSignup(reg, req).failure)
    ensures AdminHasPermission(Post, actor) && ValidateSignup(reg, req).Ok? && req.username.value in reg.users ==>
              r == Err(Invalid(UsernameTaken))
    ensures r.Ok? ==> Valid(r.value.registry)
    ensures r.Ok? ==>
              var u := r.value.user;
              && req.username == Some(u.username) && req.email == Some(u.email) && u.username !in reg.users
              && u.bio == req.bio.GetOr("") && u.id == reg.nextId
              && r.value.registry.users == reg.users[u.username := u]
              && r.value.registry.nextId == reg.nextId + 1
              && u.role == UserRole && !u.isStaff && !u.isSuperuser && u.code == code
  {
    if !AdminHasPermission(Post, actor) then Err(Denial(actor))
    else
      var cred :- ValidateSignup(reg, req);
      if cred.username in reg.users then Err(Invalid(UsernameTaken))
      else
        var u := User(reg.nextId, cred.username, cred.email, UserRole, false, false, req.bio.GetOr(""), code);
        var reg' := Registry(reg.users[u.username := u], reg.nextId + 1);
        assert Valid(reg') by {
          SignupValidationExact(reg, req);
          forall name | name in reg'.users ensures Stored(reg', name) {
            if name != u.username { assert Stored(reg, name); }
          }
        }
        Ok(Profile(reg', u))
  }
}

=== FILE: ledger.dfy ===
/**
 The review ledger: reviews of titles and comments on reviews, created by the
 requester and guarded by the moderator permission class, with at most one
 review per (title, author) and a rating derived from the live scores.
 */
module ReviewLedger {
  import opened Outcomes
  import opened Roles
  import opened Permissions
  import Catalog

  type TitleId = Catalog.TitleId
  type ReviewId = nat
  type CommentId = nat

  /** `ReviewSerializer.score` bounds. */
  const MinScore: int := 1
  const MaxScore: int := 10

  datatype Review = Review(id: ReviewId, title: TitleId, author: UserId, score: int, text: string)
  datatype Comment = Comment(review: ReviewId, author: UserId, text: string)

  /** The review table, oldest first, and the comment table; `nextId` allocates primary keys. */
  datatype Ledger = Ledger(reviews: seq<Review>, comments: map<CommentId, Comment>, nextId: nat)

  function EmptyLedger(): (l: Ledger)
    ensures Valid(l)
  {
    Ledger([], map[], 0)
  }

  predicate HasReview(rs: seq<Review>, id: ReviewId) {
    exists i :: 0 <= i < |rs| && rs[i].id == id
  }

  /** Some review of `title` was written by `author`. */
  predicate HasReviewBy(rs: seq<Review>, title: TitleId, author: UserId) {
    exists i :: 0 <= i < |rs| && rs[i].title == title && rs[i].author == author
  }

  ghost predicate ReviewsValid(rs: seq<Review>, nextId: nat) {
    && (forall i :: 0 <= i < |rs| ==> rs[i].id < nextId && MinScore <= rs[i].score <= MaxScore)
    && (forall i, j :: 0 <= i < j < |rs| ==> rs[i].id != rs[j].id)
    && (forall i, j :: 0 <= i < j < |rs| ==> rs[i].title != rs[j].title || rs[i].author != rs[j].author)
  }

  /**
   The ledger invariant: ids allocated and unique, every score in range, one
   review per (title, author), and every comment on a stored review.
   */
  ghost predicate Valid(l: Ledger) {
    && ReviewsValid(l.reviews, l.nextId)
    && (forall k :: k in l.comments ==> k < l.nextId && HasReview(l.reviews, l.comments[k].review))
  }

  /** The position of the review with primary key `id`. */
  function FindReview(rs: seq<Review>, id: ReviewId): (r: Option<nat>)
    ensures r.Some? ==> r.value < |rs| && rs[r.value].id == id
    ensures r.None? <==> !HasReview(rs, id)
  {
    if |rs| == 0 then None
    else if rs[|rs| - 1].id == id then Some(|rs| - 1)
    else
      var r := FindReview(rs[..|rs| - 1], id);
      assert forall i :: 0 <= i < |rs| - 1 ==> rs[..|rs| - 1][i] == rs[i];
      r
  }

  /** The `score` field: an integer in [MinScore, MaxScore], required unless the update is partial. */
  function ValidateScore(score: Option<int>, required: bool): (r: Result<Option<int>>)
    ensures r.Ok? ==> r.value == score
    ensures r.Ok? <==> (score.None? && !required) || (score.Some? && MinScore <= score.value <= MaxScore)
    ensures score.Some? && (score.value < MinScore || score.value > MaxScore) ==> r == Err(Invalid(ScoreOutOfRange))
  {
    if score.None? then (if required then Err(Invalid(MissingScore)) else Ok(None))
    else if score.value < MinScore || score.value > MaxScore then Err(Invalid(ScoreOutOfRange))
    else Ok(score)
  }

  /**
   A review payload. `author` and `title` are read-only in the serializer:
   whatever the client sends there is discarded.
   */
  datatype ReviewPayload = ReviewPayload(
    score: Option<int>,
    text: Option<string>,
    author: Option<UserId>,
    title: Option<TitleId>)

  datatype Posted = Posted(ledger: Ledger, review: Review)

  /**
   POST to a title's reviews: the permission check, the score field, the
   title lookup, the one-review-per-author check, then the insert with the
   requester as author and the URL's title.
   */
  function PostReview(l: Ledger, cat: Catalog.Store, actor: Actor, title: TitleId, p: ReviewPayload)
    : (r: Result<Posted>)
    requires Valid(l)
    ensures r.Ok? <==> && actor.Authenticated?
                       && p.score.Some? && MinScore <= p.score.value <= MaxScore
                       && title in cat.titles
                       && !HasReviewBy(l.reviews, title, actor.id)
    ensures actor.Anonymous? ==> r == Err(NotAuthenticated)
    ensures actor.Authenticated? && ValidateScore(p.score, true).Ok? && title !in cat.titles ==> r == Err(NotFound)
    ensures (&& actor.Authenticated? && ValidateScore(p.score, true).Ok? && title in cat.titles
             && HasReviewBy(l.reviews, title, actor.id)) ==> r == Err(Invalid(DuplicateReview))
    ensures r.Ok? ==>
              var rv := r.value.review;
              && Valid(r.value.ledger)
              && r.value.ledger.reviews == l.reviews + [rv]
              && r.value.ledger.comments == l.comments
              && rv.author == actor.id && rv.title == title && Some(rv.score) == p.score
              && rv.text == p.text.GetOr("")
              && !HasReview(l.reviews, rv.id)
  {
    if !ModeratorHasPermission(Post, actor) then Err(Denial(actor))
    else
      var score :- ValidateScore(p.score, true);
      if title !in cat.titles then Err(NotFound)
      else if HasReviewBy(l.reviews, title, actor.id) then Err(Invalid(DuplicateReview))
      else
        var rv := Review(l.nextId, title, actor.id, score.value, p.text.GetOr(""));
        var l' := Ledger(l.reviews + [rv], l.comments, l.nextId + 1);
        assert Valid(l') by {
          forall k | k in l'.comments ensures HasReview(l'.reviews, l'.comments[k].review) {
            var j :| 0 <= j < |l.reviews| && l.reviews[j].id == l.comments[k].review;
            assert l'.reviews[j] == l.reviews[j];
          }
        }
        Ok(Posted(l', rv))
  }

  /** Author and title come from the request and the URL: the payload's own author and title are ignored. */
  lemma PostIgnoresPayloadIdentity(l: Ledger, cat: Catalog.Store, actor: Actor, title: TitleId,
                                   p: ReviewPayload, author': UserId, title': TitleId)
    requires Valid(l)
    ensures PostReview(l, cat, actor, title, p.(author := Some(author'), title := Some(title')))
            == PostReview(l, cat, actor, title, p)
  {
  }

  /** The review `id` as routed under `title`: both must exist and belong together. */
  function LocateReview(l: Ledger, cat: Catalog.Store, title: TitleId, id: ReviewId): (r: Result<nat>)
    requires ReviewsValid(l.reviews, l.nextId)
    ensures r.Ok? ==> r.value < |l.reviews| && l.reviews[r.value].id == id && l.reviews[r.value].title == title
    ensures r.Ok? <==> (&& title in cat.titles
                        && exists i :: 0 <= i < |l.reviews| && l.reviews[i].id == id && l.reviews[i].title == title)
    ensures r.Err? ==> r.failure == NotFound
  {
    if title !in cat.titles then Err(NotFound)
    else
      match FindReview(l.reviews, id)
      case None => Err(NotFound)
      case Some(i) =>
        if l.reviews[i].title != title then
          assert forall j :: 0 <= j < |l.reviews| && l.reviews[j].id == id ==> j == i;
          Err(NotFound)
        else Ok(i)
  }

  /**
   PUT (full) or PATCH (partial) of a review: permission, lookup, object
   permission, then the score field; the duplicate check is skipped and
   only score and text can change.
   */
  function UpdateReview(l: Ledger, cat: Catalog.Store, actor: Actor, partial: bool,
                        title: TitleId, id: ReviewId, p: ReviewPayload): (r: Result<Posted>)
    requires Valid(l)
    ensures r.Ok? <==> && actor.Authenticated?
                       && LocateReview(l, cat, title, id).Ok?
                       && (|| actor.id == l.reviews[LocateReview(l, cat, title, id).value].author
                           || EffectiveRole(actor) != UserRole)
                       && ValidateScore(p.score, !partial).Ok?
    ensures actor.Anonymous? ==> r == Err(NotAuthenticated)
    ensures actor.Authenticated? && LocateReview(l, cat, title, id).Err? ==> r == Err(NotFound)
    ensures (&& actor.Authenticated? && LocateReview(l, cat, title, id).Ok?
             && actor.id != l.reviews[LocateReview(l, cat, title, id).value].author
             && EffectiveRole(actor) == UserRole) ==> r == Err(PermissionDenied)
    ensures (&& actor.Authenticated? && LocateReview(l, cat, title, id).Ok?
             && (|| actor.id == l.reviews[LocateReview(l, cat, title, id).value].author
                 || EffectiveRole(actor) != UserRole)
             && ValidateScore(p.score, !partial).Err?) ==> r == Err(ValidateScore(p.score, !partial).failure)
    ensures r.Ok? ==>
              && LocateReview(l, cat, title, id).Ok?
              && var i := LocateReview(l, cat, title, id).value;
                 var before := l.reviews[i];
                 var after := r.value.review;
                 && Valid(r.value.ledger)
                 && r.value.ledger == l.(reviews := l.reviews[i := after])
                 && after.id == before.id && after.title == before.title && after.author == before.author
                 && after.score == p.score.GetOr(before.score)
                 && after.text == p.text.GetOr(before.text)
                 && (actor.id == before.author || EffectiveRole(actor) != UserRole)
  {
    var m := if partial then Patch else Put;
    if !ModeratorHasPermission(m, actor) then Err(Denial(actor))
    else
      var i :- LocateReview(l, cat, title, id);
      var before := l.reviews[i];
      if !ModeratorHasObjectPermission(m, actor, before.author) then Err(Denial(actor))
      else
        var score :- ValidateScore(p.score, !partial);
        var after := before.(score := score.GetOr(before.score), text := p.text.GetOr(before.text));
        var l' := l.(reviews := l.reviews[i := after]);
        assert Valid(l') by {
          forall k | k in l'.comments ensures HasReview(l'.reviews, l'.comments[k].review) {
            var j :| 0 <= j < |l.reviews| && l.reviews[j].id == l.comments[k].review;
            assert l'.reviews[j].id == l.reviews[j].id;
          }
        }
        Ok(Posted(l', after))
  }

  /** The comments left after a CASCADE from review `id`: exactly those on other reviews. */
  function DropComments(cs: map<CommentId, Comment>, id: ReviewId): (r: map<CommentId, Comment>)
    ensures forall k :: k in r <==> k in cs && cs[k].review != id
    ensures forall k :: k in r ==> r[k] == cs[k]
  {
    map k | k in cs && cs[k].review != id :: cs[k]
  }

  /**
   DELETE of a review: permission, lookup, object permission, then the row
   goes and its comments go with it.
   */
  function DeleteReview(l: Ledger, cat: Catalog.Store, actor: Actor, title: TitleId, id: ReviewId)
    : (r: Result<Ledger>)
    requires Valid(l)
    ensures r.Ok? <==> && actor.Authenticated?
                       && LocateReview(l, cat, title, id).Ok?
                       && (|| actor.id == l.reviews[LocateReview(l, cat, title, id).value].author
                           || EffectiveRole(actor) != UserRole)
    ensures actor.Anonymous? ==> r == Err(NotAuthenticated)
    ensures actor.Authenticated? && LocateReview(l, cat, title, id).Err? ==> r == Err(NotFound)
    ensures (&& actor.Authenticated? && LocateReview(l, cat, title, id).Ok?
             && actor.id != l.reviews[LocateReview(l, cat, title, id).value].author
             && EffectiveRole(actor) == UserRole) ==> r == Err(PermissionDenied)
    ensures r.Ok? ==>
              && LocateReview(l, cat, title, id).Ok?
              && var i := LocateReview(l, cat, title, id).value;
                 && Valid(r.value)
                 && r.value.reviews == l.reviews[..i] + l.reviews[i + 1..]
                 && r.value.comments == DropComments(l.comments, id)
                 && (actor.id == l.reviews[i].author || EffectiveRole(actor) != UserRole)
  {
    if !ModeratorHasPermission(Delete, actor) then Err(Denial(actor))
    else
      var i :- LocateReview(l, cat, title, id);
      if !ModeratorHasObjectPermission(Delete, actor, l.reviews[i].author) then Err(Denial(actor))
      else
        var l' := Ledger(l.reviews[..i] + l.reviews[i + 1..], DropComments(l.comments, id), l.nextId);
        assert Valid(l') by { DeleteKeepsValid(l, i, l'); }
        Ok(l')
  }

  lemma DeleteKeepsValid(l: Ledger, i: nat, l': Ledger)
    requires Valid(l) && i < |l.reviews|
    requires l' == Ledger(l.reviews[..i] + l.reviews[i + 1..], DropComments(l.comments, l.reviews[i].id), l.nextId)
    ensures Valid(l')
  {
    RemoveKeepsReviewsValid(l.reviews, l.nextId, i);
    forall k | k in l'.comments ensures k < l.nextId && HasReview(l'.reviews, l'.comments[k].review) {
      RemainingReviewFound(l.reviews, l.nextId, i, l'.comments[k].review);
    }
  }

  /** The review positions other than `i`, renumbered after removing position `i`. */
  lemma RemoveKeepsReviewsValid(rs: seq<Review>, nextId: nat, i: nat)
    requires ReviewsValid(rs, nextId) && i < |rs|
    ensures ReviewsValid(rs[..i] + rs[i + 1..], nextId)
  {
    var rs' := rs[..i] + rs[i + 1..];
    forall k | 0 <= k < |rs'| ensures rs'[k] == rs[if k < i then k else k + 1] {
    }
    forall a, b | 0 <= a < b < |rs'|
      ensures rs'[a].id != rs'[b].id && (rs'[a].title != rs'[b].title || rs'[a].author != rs'[b].author)
    {
      var a0, b0 := if a < i then a else a + 1, if b < i then b else b + 1;
      assert rs'[a] == rs[a0] && rs'[b] == rs[b0] && a0 < b0;
    }
  }

  /** A review other than the removed one is still found after the removal. */
  lemma RemainingReviewFound(rs: seq<Review>, nextId: nat, i: nat, id: ReviewId)
    requires ReviewsValid(rs, nextId) && i < |rs| && HasReview(rs, id) && id != rs[i].id
    ensures HasReview(rs[..i] + rs[i + 1..], id)
  {
    var rs' := rs[..i] + rs[i + 1..];
    var j :| 0 <= j < |rs| && rs[j].id == id;
    if j < i { assert rs'[j] == rs[j]; } else { assert rs'[j - 1] == rs[j]; }
  }

  datatype CommentPosted = CommentPosted(ledger: Ledger, comment: Comment)

  /**
   POST to a review's comments: permission, the review lookup (the title in
   the URL is not consulted), then the insert with the requester as author.
   */
  function PostComment(l: Ledger, actor: Actor, review: ReviewId, text: string): (r: Result<CommentPosted>)
    requires Valid(l)
    ensures r.Ok? <==> actor.Authenticated? && HasReview(l.reviews, review)
    ensures actor.Authenticated? && !HasReview(l.reviews, review) ==> r == Err(NotFound)
    ensures actor.Anonymous? ==> r == Err(NotAuthenticated)
    ensures r.Ok? ==>
              && Valid(r.value.ledger)
              && r.value.ledger.reviews == l.reviews
              && l.nextId !in l.comments
              && r.value.ledger.comments == l.comments[l.nextId := r.value.comment]
              && r.value.comment.author == actor.id && r.value.comment.review == review
              && r.value.comment.text == text
  {
    if !ModeratorHasPermission(Post, actor) then Err(Denial(actor))
    else if FindReview(l.reviews, review).None? then Err(NotFound)
    else
      var c := Comment(review, actor.id, text);
      Ok(CommentPosted(Ledger(l.reviews, l.comments[l.nextId := c], l.nextId + 1), c))
  }

  // ---------------------------------------------------------------------
  // Rating
  // ---------------------------------------------------------------------

  /** The scores of the reviews of `title`, in ledger order. */
  function Scores(rs: seq<Review>, title: TitleId): seq<int> {
    if |rs| == 0 then []
    else
      var last := rs[|rs| - 1];
      Scores(rs[..|rs| - 1], title) + (if last.title == title then [last.score] else [])
  }

  function Sum(xs: seq<int>): int {
    if |xs| == 0 then 0 else Sum(xs[..|xs| - 1]) + xs[|xs| - 1]
  }

  /** `Avg('reviews__score')` kept exact: null, or the mean `sum / count` with `count > 0`. */
  datatype Rating = NoRating | Mean(sum: int, count: nat)

  /** The rating as a number. */
  function Value(r: Rating): real
    requires r.Mean? && r.count > 0
  {
    r.sum as real / r.count as real
  }

  /** The rating annotated on a title: the mean of its current review scores. */
  function RatingOf(rs: seq<Review>, title: TitleId): Rating {
    var xs := Scores(rs, title);
    if |xs| == 0 then NoRating else Mean(Sum(xs), |xs|)
  }

  /** Computing the rating by one pass over the ledger. */
  method ComputeRating(rs: seq<Review>, title: TitleId) returns (r: Rating)
    ensures r == RatingOf(rs, title)
  {
    var sum, count := 0, 0;
    var i := 0;
    while i < |rs|
      invariant 0 <= i <= |rs|
      invariant sum == Sum(Scores(rs[..i], title)) && count == |Scores(rs[..i], title)|
    {
      PrefixStep(rs, i, title);
      if rs[i].title == title {
        sum, count := sum + rs[i].score, count + 1;
      }
      i := i + 1;
    }
    assert rs[..i] == rs;
    r := if count == 0 then NoRating else Mean(sum, count);
  }

  /** Extending the scanned prefix by one review adds its score, if it is of `title`. */
  lemma PrefixStep(rs: seq<Review>, i: nat, title: TitleId)
    requires i < |rs|
    ensures Sum(Scores(rs[..i + 1], title)) == Sum(Scores(rs[..i], title)) + (if rs[i].title == title then rs[i].score else 0)
    ensures |Scores(rs[..i + 1], title)| == |Scores(rs[..i], title)| + (if rs[i].title == title then 1 else 0)
  {
    assert rs[..i + 1] == rs[..i] + [rs[i]];
    ScoresSnoc(rs[..i], rs[i], title);
  }

  /** One more review extends the title's scores by its score, or not at all. */
  lemma ScoresSnoc(rs: seq<Review>, rv: Review, title: TitleId)
    ensures Scores(rs + [rv], title) == Scores(rs, title) + (if rv.title == title then [rv.score] else [])
    ensures Sum(Scores(rs + [rv], title)) == Sum(Scores(rs, title)) + (if rv.title == title then rv.score else 0)
    ensures |Scores(rs + [rv], title)| == |Scores(rs, title)| + (if rv.title == title then 1 else 0)
  {
    assert (rs + [rv])[..|rs|] == rs;
    var xs := Scores(rs, title);
    if rv.title == title {
      assert (xs + [rv.score])[..|xs|] == xs;
    } else {
      assert xs + [] == xs;
    }
  }

  lemma {:induction false} ScoresAppend(a: seq<Review>, b: seq<Review>, title: TitleId)
    ensures Scores(a + b, title) == Scores(a, title) + Scores(b, title)
    decreases |b|
  {
    if |b| == 0 {
      assert a + b == a;
    } else {
      var b' := b[..|b| - 1];
      assert (a + b)[..|a + b| - 1] == a + b';
      ScoresAppend(a, b', title);
    }
  }

  lemma {:induction false} SumAppend(xs: seq<int>, ys: seq<int>)
    ensures Sum(xs + ys) == Sum(xs) + Sum(ys)
    decreases |ys|
  {
    if |ys| == 0 {
      assert xs + ys == xs;
    } else {
      var ys' := ys[..|ys| - 1];
      assert (xs + ys)[..|xs + ys| - 1] == xs + ys';
      SumAppend(xs, ys');
    }
  }

  /** A title has no rating exactly when it has no reviews. */
  lemma {:induction false} NoRatingIffNoReviews(rs: seq<Review>, title: TitleId)
    ensures RatingOf(rs, title).NoRating? <==> forall i :: 0 <= i < |rs| ==> rs[i].title != title
    ensures RatingOf(rs, title).Mean? ==> RatingOf(rs, title).count > 0
  {
    if |rs| > 0 {
      var rs' := rs[..|rs| - 1];
      NoRatingIffNoReviews(rs', title);
      assert forall i :: 0 <= i < |rs'| ==> rs'[i] == rs[i];
    }
  }

  /** Every score of a title lies in range when every review does. */
  lemma {:induction false} ScoresInRange(rs: seq<Review>, title: TitleId)
    requires forall i :: 0 <= i < |rs| ==> MinScore <= rs[i].score <= MaxScore
    ensures MinScore * |Scores(rs, title)| <= Sum(Scores(rs, title)) <= MaxScore * |Scores(rs, title)|
  {
    if |rs| > 0 {
      var rs' := rs[..|rs| - 1];
      ScoresInRange(rs', title);
      var last := rs[|rs| - 1];
      var tail: seq<int> := if last.title == title then [last.score] else [];
      SumAppend(Scores(rs', title), tail);
    }
  }

  /** A title's rating, when it has one, lies between the lowest and highest score. */
  lemma RatingInRange(l: Ledger, title: TitleId)
    requires Valid(l) && RatingOf(l.reviews, title).Mean?
    ensures var r := RatingOf(l.reviews, title);
            && r.count > 0
            && MinScore * r.count <= r.sum <= MaxScore * r.count
            && MinScore as real <= Value(r) <= MaxScore as real
  {
    NoRatingIffNoReviews(l.reviews, title);
    ScoresInRange(l.reviews, title);
    var r := RatingOf(l.reviews, title);
    MeanBetween(r.sum as real, r.count as real, MinScore as real, MaxScore as real);
  }

  /** A quotient of a total lying between `lo` and `hi` times a positive count lies between them. */
  lemma MeanBetween(sum: real, count: real, lo: real, hi: real)
    requires count > 0.0 && lo * count <= sum <= hi * count
    ensures lo <= sum / count <= hi
  {
    var q := sum / count;
    assert q * count == sum;
  }

  /** Totals of a rating, zero when there is none. */
  function Totals(r: Rating): (int, nat) {
    if r.NoRating? then (0, 0) else (r.sum, r.count)
  }

  /** A new review adds its score to its own title's rating and to no other. */
  lemma RatingAfterPost(l: Ledger, cat: Catalog.Store, actor: Actor, title: TitleId, p: ReviewPayload, t: TitleId)
    requires Valid(l) && PostReview(l, cat, actor, title, p).Ok?
    ensures var l' := PostReview(l, cat, actor, title, p).value.ledger;
            var (s, n) := Totals(RatingOf(l.reviews, t));
            Totals(RatingOf(l'.reviews, t)) == if t == title then (s + p.score.value, n + 1) else (s, n)
  {
    var posted := PostReview(l, cat, actor, title, p).value;
    ScoresSnoc(l.reviews, posted.review, t);
  }

  /** Removing the review at position `i` takes its score out of its own title's scores only. */
  lemma ScoresRemove(rs: seq<Review>, i: nat, t: TitleId)
    requires i < |rs|
    ensures var xs, ys := Scores(rs, t), Scores(rs[..i] + rs[i + 1..], t);
            && |ys| == |xs| - (if rs[i].title == t then 1 else 0)
            && Sum(ys) == Sum(xs) - (if rs[i].title == t then rs[i].score else 0)
  {
    var front, back := rs[..i], rs[i + 1..];
    assert rs == (front + [rs[i]]) + back;
    ScoresAppend(front + [rs[i]], back, t);
    ScoresSnoc(front, rs[i], t);
    ScoresAppend(front, back, t);
    var sf, sb := Scores(front, t), Scores(back, t);
    SumAppend(Scores(front + [rs[i]], t), sb);
    SumAppend(sf, sb);
  }

  /** Deleting a review removes its score from its own title's rating and from no other. */
  lemma RatingAfterDelete(l: Ledger, cat: Catalog.Store, actor: Actor, title: TitleId, id: ReviewId, t: TitleId)
    requires Valid(l) && DeleteReview(l, cat, actor, title, id).Ok?
    ensures var i := LocateReview(l, cat, title, id).value;
            var l' := DeleteReview(l, cat, actor, title, id).value;
            var (s, n) := Totals(RatingOf(l.reviews, t));
            Totals(RatingOf(l'.reviews, t)) == if t == title then (s - l.reviews[i].score, n - 1) else (s, n)
  {
    var i := LocateReview(l, cat, title, id).value;
    var rest := DeleteReview(l, cat, actor, title, id).value.reviews;
    assert rest == l.reviews[..i] + l.reviews[i + 1..] && l.reviews[i].title == title;
    RemovalTotals(l.reviews, i, t);
  }

  /** Removing position `i` takes its score and one out of its own title's totals only. */
  lemma RemovalTotals(rs: seq<Review>, i: nat, t: TitleId)
    requires i < |rs|
    ensures var (s, n) := Totals(RatingOf(rs, t));
            Totals(RatingOf(rs[..i] + rs[i + 1..], t)) == if rs[i].title == t then (s - rs[i].score, n - 1) else (s, n)
  {
    ScoresRemove(rs, i, t);
    TotalsOfScores(rs, t);
    TotalsOfScores(rs[..i] + rs[i + 1..], t);
  }

  /** The totals of a rating are the sum and the number of the title's scores. */
  lemma TotalsOfScores(rs: seq<Review>, t: TitleId)
    ensures Totals(RatingOf(rs, t)) == (Sum(Scores(rs, t)), |Scores(rs, t)|)
  {
  }

  /** The ledger never holds two reviews of one title by one author. */
  lemma OneReviewPerAuthor(l: Ledger, i: int, j: int)
    requires Valid(l) && 0 <= i < |l.reviews| && 0 <= j < |l.reviews| && i != j
    ensures l.reviews[i].title != l.reviews[j].title || l.reviews[i].author != l.reviews[j].author
  {
    if j < i {
      assert l.reviews[j].title != l.reviews[i].title || l.reviews[j].author != l.reviews[i].author;
    }
  }
}

=== FILE: outcomes.dfy ===
/**
 Failure-compatible result types shared by every component, and the error
 taxonomy the endpoints map onto HTTP status codes.
 */
module Outcomes {

  /** A value that may be absent: a missing request field, a nullable column. */
  datatype Option<+T> = None | Some(value: T) {

    /** Returns the wrapped value, or `default` when absent. */
    function GetOr(default: T): T {
      match this
      case Some(v) => v
      case None => default
    }
  }

  /** Why a request was rejected as malformed (a serializer `ValidationError`). */
  datatype Reason =
    | ReservedUsername
    | MissingUsername
    | MissingEmail
    | MissingCode
    | FieldTooLong
    | UsernameTaken
    | EmailTaken
    | CodeMismatch
    | MissingScore
    | ScoreOutOfRange
    | DuplicateReview
    | SlugTaken
    | UnknownCategory

  /** Every way a request can fail, one constructor per response class. */
  datatype Failure =
    | Invalid(reason: Reason)   // serializer validation, 400
    | NotAuthenticated          // permission refused to an anonymous actor, 401
    | PermissionDenied          // permission refused to an authenticated actor, 403
    | NotFound                  // get_object_or_404, 404
    | IntegrityError            // a storage uniqueness constraint fired, 500
    | ServerError               // an uncaught exception in the view, 500

  /** A value or the failure that prevented it; usable with `:-`. */
  datatype Result<+T> = Ok(value: T) | Err(failure: Failure) {

    predicate IsFailure() {
      Err?
    }

    function PropagateFailure<U>(): Result<U>
      requires Err?
    {
      Err(failure)
    }

    function Extract(): T
      requires Ok?
    {
      value
    }
  }

  /** The HTTP status a failure is answered with. */
  function Status(f: Failure): (code: nat)
    ensures 400 <= code < 600
    ensures code < 500 <==> !(f.IntegrityError? || f.ServerError?)
  {
    match f
    case Invalid(_) => 400
    case NotAuthenticated => 401
    case PermissionDenied => 403
    case NotFound => 404
    case IntegrityError => 500
    case ServerError => 500
  }
}

=== FILE: permissions.dfy ===
/**
 The three permission classes guarding the endpoints, as pure allow/deny
 predicates over the request method, the actor and (object level) the
 resource's author, with reference truth tables and monotonicity.
 */
module Permissions {
  import opened Outcomes
  import opened Roles

  datatype HttpMethod = Get | Head | Options | Post | Put | Patch | Delete

  /** The framework's SAFE_METHODS: GET, HEAD and OPTIONS. */
  predicate IsSafe(m: HttpMethod) {
    m == Get || m == Head || m == Options
  }

  /** `UserIsModerator.has_permission`: reads are open, writes need a login. */
  function ModeratorHasPermission(m: HttpMethod, a: Actor): (allowed: bool)
    ensures allowed == RequestTable(TierOf(a), IsSafe(m)).0
  {
    if IsSafe(m) then true else IsAuthenticated(a)
  }

  /** `UserIsModerator.has_object_permission`: reads are open, writes need authorship or a privileged role. */
  function ModeratorHasObjectPermission(m: HttpMethod, a: Actor, author: UserId): (allowed: bool)
    ensures allowed == ObjectTable(TierOf(a), IsAuthor(a, author), IsSafe(m))
  {
    if IsSafe(m) then true
    else
      || IsAuthor(a, author)
      || (IsAuthenticated(a) && IsModerator(a))
      || (IsAuthenticated(a) && IsAdmin(a))
  }

  /** `UserIsAdmin.has_permission`: admins only, whatever the method. */
  function AdminHasPermission(m: HttpMethod, a: Actor): (allowed: bool)
    ensures allowed == RequestTable(TierOf(a), IsSafe(m)).1
  {
    IsAuthenticated(a) && IsAdmin(a)
  }

  /**
   `UserIsAdminOrReadOnly.has_permission`: reads are open, otherwise the
   staff flag, the superuser flag or the admin role. The anonymous user has
   both flags false and no role, so it is refused.
   */
  function AdminOrReadOnlyHasPermission(m: HttpMethod, a: Actor): (allowed: bool)
    ensures allowed == RequestTable(TierOf(a), IsSafe(m)).2
  {
    || IsSafe(m)
    || (a.Authenticated? && a.isStaff)
    || (a.Authenticated? && a.isSuperuser)
    || (a.Authenticated? && a.role == AdminRole)
  }

  /** How the framework answers a refused permission: 401 without credentials, else 403. */
  function Denial(a: Actor): (f: Failure)
    ensures f == NotAuthenticated <==> a.Anonymous?
    ensures f == PermissionDenied <==> a.Authenticated?
  {
    if a.Anonymous? then NotAuthenticated else PermissionDenied
  }

  /** The four rows of the role truth table. */
  datatype Tier = AnonymousTier | UserTier | ModeratorTier | AdminTier

  function TierOf(a: Actor): Tier {
    if a.Anonymous? then AnonymousTier
    else if a.isStaff || a.isSuperuser || a.role == AdminRole then AdminTier
    else if a.role == ModeratorRole then ModeratorTier
    else UserTier
  }

  /** Reference table for reviews and comments: tier x ownership x safe method. */
  function ObjectTable(t: Tier, own: bool, safe: bool): bool {
    if safe then true
    else
      match t
      case AnonymousTier => false
      case UserTier => own
      case ModeratorTier => true
      case AdminTier => true
  }

  /** Reference table for the request-level checks of the three classes. */
  function RequestTable(t: Tier, safe: bool): (allowed: (bool, bool, bool))
  {
    // (UserIsModerator, UserIsAdmin, UserIsAdminOrReadOnly)
    match t
    case AnonymousTier => (safe, false, safe)
    case UserTier => (true, false, safe)
    case ModeratorTier => (true, false, safe)
    case AdminTier => (true, true, true)
  }

  /** Reads pass `UserIsModerator` at both levels, for every actor including the anonymous one. */
  lemma SafeMethodsAlwaysAllowed(m: HttpMethod, a: Actor, author: UserId)
    requires IsSafe(m)
    ensures ModeratorHasPermission(m, a)
    ensures ModeratorHasObjectPermission(m, a, author)
    ensures AdminOrReadOnlyHasPermission(m, a)
  {
  }

  /** A write passes the request-level moderator check exactly when the actor is logged in. */
  lemma UnsafeNeedsAuthentication(m: HttpMethod, a: Actor)
    requires !IsSafe(m)
    ensures ModeratorHasPermission(m, a) <==> a.Authenticated?
  {
  }

  /** A write on an object is allowed exactly to its author, a moderator or an admin. */
  lemma ObjectWriteRule(m: HttpMethod, a: Actor, author: UserId)
    requires !IsSafe(m)
    ensures ModeratorHasObjectPermission(m, a, author)
            <==> a.Authenticated? && (a.id == author || EffectiveRole(a) != UserRole)
    ensures a.Anonymous? ==> !ModeratorHasObjectPermission(m, a, author)
  {
  }

  /** `UserIsAdmin` ignores the method: reads are refused to non-admins too. */
  lemma AdminCheckIgnoresMethod(m: HttpMethod, m': HttpMethod, a: Actor)
    ensures AdminHasPermission(m, a) == AdminHasPermission(m', a)
    ensures AdminHasPermission(m, a) <==> a.Authenticated? && EffectiveRole(a) == AdminRole
  {
  }

  /** The read-only variant admits exactly the reads and the admins. */
  lemma AdminOrReadOnlyRule(m: HttpMethod, a: Actor)
    ensures AdminOrReadOnlyHasPermission(m, a) <==> IsSafe(m) || AdminHasPermission(m, a)
  {
  }

  /** Raising an actor's privileges never turns an allow into a deny, in any class. */
  lemma PermissionsMonotone(m: HttpMethod, a: Actor, b: Actor, author: UserId)
    requires Elevates(a, b)
    ensures ModeratorHasPermission(m, a) ==> ModeratorHasPermission(m, b)
    ensures ModeratorHasObjectPermission(m, a, author) ==> ModeratorHasObjectPermission(m, b, author)
    ensures AdminHasPermission(m, a) ==> AdminHasPermission(m, b)
    ensures AdminOrReadOnlyHasPermission(m, a) ==> AdminOrReadOnlyHasPermission(m, b)
  {
  }
}

=== FILE: roles.dfy ===
/**
 The three-tier role model and the actor a request is evaluated for.

 A stored user carries an explicit role plus two framework flags
 (`is_staff`, `is_superuser`) that count as admin. The flags and the role are
 resolved into one effective role here, once, and every permission rule uses
 that resolution.
 */
module Roles {

  type UserId = nat

  /** The `role` column: 'user', 'moderator' or 'admin'. */
  datatype Role = UserRole | ModeratorRole | AdminRole

  /** Position of a role in the order user < moderator < admin. */
  function Rank(r: Role): nat {
    match r
    case UserRole => 0
    case ModeratorRole => 1
    case AdminRole => 2
  }

  /** `request.user`: the anonymous user, or a stored user's identity and privileges. */
  datatype Actor =
    | Anonymous
    | Authenticated(id: UserId, role: Role, isStaff: bool, isSuperuser: bool)

  predicate IsAuthenticated(a: Actor) {
    a.Authenticated?
  }

  /** `is_moderator()`: the stored role is moderator. */
  predicate IsModerator(a: Actor) {
    a.Authenticated? && a.role == ModeratorRole
  }

  /** `is_admin()`: staff, superuser, or the stored role is admin. */
  predicate IsAdmin(a: Actor) {
    a.Authenticated? && (a.isStaff || a.isSuperuser || a.role == AdminRole)
  }

  /** `request.user == obj.author`: only a stored user can be an author. */
  predicate IsAuthor(a: Actor, author: UserId) {
    a.Authenticated? && a.id == author
  }

  /** The normalized role of an authenticated actor: the flags imply admin. */
  function EffectiveRole(a: Actor): (r: Role)
    requires a.Authenticated?
    ensures r == AdminRole <==> IsAdmin(a)
    ensures r == ModeratorRole <==> IsModerator(a) && !IsAdmin(a)
    ensures Rank(a.role) <= Rank(r)
  {
    if a.isStaff || a.isSuperuser then AdminRole else a.role
  }

  /**
   `b` is `a` with privileges raised and nothing taken away: an anonymous
   actor logging in, or the same user gaining a higher role or a flag.
   */
  predicate Elevates(a: Actor, b: Actor) {
    || a.Anonymous?
    || (&& a.Authenticated? && b.Authenticated?
        && a.id == b.id
        && Rank(a.role) <= Rank(b.role)
        && (a.isStaff ==> b.isStaff)
        && (a.isSuperuser ==> b.isSuperuser))
  }

  /** Raising privileges never lowers the effective role. */
  lemma ElevationRaisesEffectiveRole(a: Actor, b: Actor)
    requires a.Authenticated? && Elevates(a, b)
    ensures b.Authenticated?
    ensures Rank(EffectiveRole(a)) <= Rank(EffectiveRole(b))
  {
  }
}
